=== FILE: README.md ===
# SEC filings RAG copilot — retrieval, prompt assembly and evaluation metrics in Dafny

This project models the pure logic of a retrieval-augmented question-answering
service over SEC filings, and proves properties of it.

- **Re-ranking retriever** (`app_code/langgraph_app/retriever.py`). The model covers:
  - the two keyword classifiers over the question: the Apple ticker guess and the section hint;
  - the additive heuristic score;
  - the whitespace- and case-insensitive text fingerprint;
  - the `search` pipeline once the search service has answered. That is the request body, first-seen deduplication by fingerprint, the stable descending sort by score and the top-k slice.
- **Prompt assembly** (`app_code/langgraph_app/graph.py`, lines 30-33). Each ranked hit becomes a
  `"<ticker> <year> <type> p.<page>: <text[:400]>"` entry. The entries are joined by blank lines and wrapped into the user prompt.
- **Evaluation helpers** (`eval/run_eval.py`):
  - the citation scanner, which reads bracket groups and the item label inside them;
  - the bullet-quote counter;
  - keyword coverage;
  - word-set Jaccard similarity;
  - the hash-bucket repeat sample;
  - the CIM and MQS flags;
  - the per-filing aggregation key.

Modules, one per file:

| file | module | what it holds |
|---|---|---|
| wrappers.dfy | `Wrappers` | `Option` (a missing key or `None`) and `Result` (a value or the raised error) |
| strings.dfy | `Strings` | ASCII character classes, `lower`/`upper`, `in` on strings, `join`, `strip`, `str(int)` |
| splitting.dfy | `Splitting` | maximal runs of a character class: `str.split()` and `re.findall("[...]+")` |
| counting.dfy | `Counting` | counting the elements that pass a test |
| chunks.dfy | `Chunks` | the hit record `_source`, every field optional |
| query.dfy | `QueryInference` | `_guess_ticker`, `_section_hint` |
| scoring.dfy | `Scoring` | `_KWS`, `_score` in integer hundredths |
| fingerprint.dfy | `Fingerprints` | `_fingerprint` |
| ranking.dfy | `Ranking` | the stable descending sort of scored candidates |
| retriever.dfy | `Retriever` | the request of `search`, deduplication, sort and slice, and `search` itself |
| context.dfy | `PromptAssembly` | the context entries and the user prompt |
| citations.dfy | `Citations` | `extract_item_labels`, `count_quotes`, the CIM and MQS flags |
| metrics.dfy | `Metrics` | `keyword_coverage`, `jaccard`, `deterministic_sample`, the aggregation key |

## Modelling choices

- **Scores.** Every bonus of `_score` is a multiple of 0.01, so scores are exact integers in hundredths: 1.5 is 150, 0.2 is 20, 5.0 is 500, and `0.01*year` is `year`.
- **Fingerprints.** `Fingerprints.Collapse` is `" ".join(s.split())`, the whitespace-separated words joined by single blanks; its properties are stated through the fingerprint lemmas. The md5 digest of a fingerprint is modelled as the normalized 160-character prefix itself. Two texts therefore share a fingerprint exactly when their normalized prefixes are equal.
- **The search service.** It is a function parameter from the request body to the list of hits, in service order. `Search` mirrors the loop of the source. Its result equals `Rerank`, the functional statement of deduplication, sort and slice.
- **Generic dedup and ranking.** They are stated for any dedup key and any scorer (`Dedup`, `TopCandidates`, `TopHits`). `Rerank` instantiates them with the fingerprint and with `_score` against the question.
- **Bucket digest.** `deterministic_sample` reads the first four hex digits of an md5 digest. That number is the parameter `digest16`, and the `% 100` is modelled.
- **Regular expressions.** Each one is modelled as the scan Python's `re` performs for it: leftmost match, then resume at the end of the match. `^` without `MULTILINE` matches only at the start of the answer. `.` does not match a line feed.
- **Python slices.** `cand[:k]` keeps its meaning for a negative `k`: it drops elements from the end.
- **Missing fields.** Chunk fields that are absent are `None`. Rendering a context entry indexes the ticker, year, filing type and text, so a missing one is a `MissingField` error, and the first missing one in reading order is reported. The page defaults to 1.

- **Section bonus.** The section bonus of 5.0 does not dominate the lexical bonuses: four extra keyword hits (4 × 1.5 = 6.0) outweigh it. The model keeps the constants as written, and `Scoring.ScoreTerms` states the sum.

## Model

| member | source | states |
|---|---|---|
| QueryInference.FindWordFrom | app_code/langgraph_app/retriever.py:20 | the scan reports a case-insensitive whole-word match at or after a position exactly when one exists |
| QueryInference.GuessTicker | app_code/langgraph_app/retriever.py:19-21 | the ticker is "AAPL" exactly when the question holds the whole word AAPL or Apple in any case, and absent otherwise |
| QueryInference.SectionHint | app_code/langgraph_app/retriever.py:23-29 | "Item 1A" exactly when a risk term occurs in the lower-cased question; "Item 7" exactly when no risk term but a cash term occurs; no hint exactly when neither does |
| QueryInference.RiskWinsOverCash | app_code/langgraph_app/retriever.py:25-28 | a question mentioning both "risk" and "cash" gets "Item 1A" |
| QueryInference.CashFlowImpliesCash | app_code/langgraph_app/retriever.py:27 | any text containing "cash flow" contains "cash" |
| QueryInference.SectionHintWithoutCashFlow | app_code/langgraph_app/retriever.py:23-29 | dropping "cash flow" from the cash terms gives the same hint for every question |
| Scoring.KeywordScore | app_code/langgraph_app/retriever.py:31-40 | the keyword term is 150 times the number of keywords present in the question or the text, each counted once even when present in both, and at most 11 × 150 |
| Scoring.QueryTokens | app_code/langgraph_app/retriever.py:42 | the query tokens are non-empty runs of `[a-z0-9-]` of the lower-cased question, and together they are exactly its `[a-z0-9-]` characters in order |
| Scoring.QueryTokenWord | app_code/langgraph_app/retriever.py:42 | a whole word of token characters is a single token, however long |
| Scoring.QueryTokensSplit | app_code/langgraph_app/retriever.py:42 | a character outside `[a-z0-9-]` after lower-casing separates the tokens of the two sides |
| Scoring.TokenScore | app_code/langgraph_app/retriever.py:41-44 | the token term is 20 times the number of token occurrences, repeats included, that are substrings of the lower-cased text, and at most 20 per token |
| Scoring.SectionScore | app_code/langgraph_app/retriever.py:45-48 | +500 exactly when a hint exists and the lower-cased item label starts with the lower-cased hint, 0 otherwise |
| Scoring.FilingTypeScore | app_code/langgraph_app/retriever.py:50 | +20 exactly for filing type "10-K" or "10-Q", 0 otherwise |
| Scoring.YearScore | app_code/langgraph_app/retriever.py:51 | the recency term is the year, 0 when the year is missing |
| Scoring.Score | app_code/langgraph_app/retriever.py:34-52 | the score minus the year term lies between 0 and the sum of the maximal bonuses; the score is non-negative for a non-negative year |
| Scoring.ScoreTerms | app_code/langgraph_app/retriever.py:34-52 | the score is exactly the sum of the keyword, token, section, filing-type and year terms, each stated by its meaning |
| Splitting.Runs | app_code/langgraph_app/retriever.py:55 | every run is non-empty and made of kept characters |
| Splitting.RunsOfAll | app_code/langgraph_app/retriever.py:55 | a non-empty string of kept characters is a single run: runs are maximal |
| Splitting.RunsOfNone | app_code/langgraph_app/retriever.py:55 | a string without kept characters has no runs |
| Splitting.RunsConcat | app_code/langgraph_app/retriever.py:55 | the runs, concatenated, are exactly the kept characters in order |
| Splitting.RunsSeparator | app_code/langgraph_app/retriever.py:55 | a character outside the class splits the runs: the runs of `a + [c] + b` are those of `a` followed by those of `b` |
| Splitting.RunsMap | app_code/langgraph_app/retriever.py:55 | mapping characters by a function that keeps the class maps each run and keeps the run structure |
| Fingerprints.Fingerprint | app_code/langgraph_app/retriever.py:54-56 | the fingerprint is the first min(160, n) characters of the whitespace-collapsed text of length n, each lower-cased |
| Fingerprints.FingerprintDistinguishes | app_code/langgraph_app/retriever.py:54-56 | texts whose collapsed forms differ, ignoring case, within the first 160 characters get different fingerprints |
| Fingerprints.CollapseLower | app_code/langgraph_app/retriever.py:55 | collapsing whitespace and lower-casing commute |
| Fingerprints.FingerprintIgnoresCase | app_code/langgraph_app/retriever.py:55 | texts that differ only in letter case share a fingerprint |
| Fingerprints.FingerprintIgnoresSpaceRuns | app_code/langgraph_app/retriever.py:55 | texts that differ only in the length or kind of a whitespace run share a fingerprint |
| Fingerprints.FingerprintIgnoresEdgeSpace | app_code/langgraph_app/retriever.py:55 | leading and trailing whitespace does not change the fingerprint |
| Fingerprints.CollapsePrefix | app_code/langgraph_app/retriever.py:55 | the whitespace-collapsed form of a text is a prefix of that of the text with anything appended |
| Fingerprints.FingerprintIgnoresTail | app_code/langgraph_app/retriever.py:55-56 | once the whitespace-collapsed text reaches 160 characters, appending anything does not change the fingerprint |
| Retriever.PoolSize | app_code/langgraph_app/retriever.py:65-66 | the pool is at least 30 and at least 4k, and equals one of them |
| Retriever.DefaultPoolSize | app_code/langgraph_app/retriever.py:58-66 | the default k = 8 asks for 32 hits |
| Retriever.BuildRequest | app_code/langgraph_app/retriever.py:59-69 | size and kNN k are both the pool size; the filter is one ticker term exactly when the question mentions Apple and empty otherwise; the embedding is not among the returned fields |
| Retriever.Dedup | app_code/langgraph_app/retriever.py:73-80 | the kept candidates are exactly the first occurrences of each key, each with its hit and its score, in fetch order |
| Retriever.DedupSize | app_code/langgraph_app/retriever.py:73-80 | one candidate is kept per distinct key |
| Retriever.DedupOfDistinct | app_code/langgraph_app/retriever.py:73-80 | hits with pairwise different keys all survive, in order |
| Retriever.DedupIdempotent | app_code/langgraph_app/retriever.py:73-80 | deduplicating the output again changes nothing |
| Ranking.Insert | app_code/langgraph_app/retriever.py:82 | inserting into a non-increasing list keeps it non-increasing and adds exactly the new element |
| Ranking.SortByScore | app_code/langgraph_app/retriever.py:82 | the sorted list is a permutation of the input with non-increasing scores |
| Ranking.SortRanked | app_code/langgraph_app/retriever.py:82 | sorting a list in fetch order puts higher scores first and equal scores in fetch order |
| Ranking.SortStable | app_code/langgraph_app/retriever.py:82 | for every score, the elements with that score keep their input order |
| Retriever.Take | app_code/langgraph_app/retriever.py:83 | `xs[:k]` is a prefix of length min(k, n) for k ≥ 0 and max(0, n + k) for k < 0 |
| Retriever.TopCandidates | app_code/langgraph_app/retriever.py:73-83 | min(k, #distinct keys) candidates, each a first occurrence with its score, keys pairwise different, ranked; every first occurrence left out ranks after every kept one |
| Retriever.TopHits | app_code/langgraph_app/retriever.py:73-83 | the returned hits number min(k, #distinct keys); each is a fetched hit; no two share a key; scores are non-increasing |
| Retriever.Rerank | app_code/langgraph_app/retriever.py:72-83 | the same, for the fingerprint key and `_score` against the question |
| Retriever.TopHitsPositions | app_code/langgraph_app/retriever.py:73-82 | each kept hit is the first fetched hit with its key, and hits with equal scores keep fetch order |
| Retriever.RerankPositions | app_code/langgraph_app/retriever.py:73-82 | each returned hit is the first fetched hit with its fingerprint, and hits with equal scores against the question keep fetch order |
| Retriever.DedupLoop | app_code/langgraph_app/retriever.py:73-80 | the loop with its `seen` set ends with the set of all keys and with exactly the candidates `Dedup` describes |
| Retriever.Search | app_code/langgraph_app/retriever.py:58-83 | `search` sends the request of `BuildRequest` and returns exactly the re-ranked list of the service's answer |
| PromptAssembly.Clip | app_code/langgraph_app/graph.py:31 | `text[:400]` is the prefix of length min(400, len) |
| PromptAssembly.RenderHit | app_code/langgraph_app/graph.py:31 | an entry exists exactly when ticker, year, type and text are present; otherwise the first missing of them, in that order, is the error; an entry is the ticker, a blank, the year, a blank, the filing type, " p.", the page (1 when missing), ": " and the first 400 characters of the text |
| PromptAssembly.RenderDefaultPage | app_code/langgraph_app/graph.py:31 | a hit without a page renders as one on page 1 |
| PromptAssembly.RenderIgnoresTextTail | app_code/langgraph_app/graph.py:31 | texts that agree on their first 400 characters render alike |
| PromptAssembly.RenderHitReadBack | app_code/langgraph_app/graph.py:31 | with blank-free tickers and filing types, two hits give the same entry only when they have the same ticker, year, filing type, shown page and first 400 characters of text |
| PromptAssembly.EntryParts | app_code/langgraph_app/graph.py:31 | an entry splits uniquely into ticker, year, filing type, page and text at its blank, blank, blank, "p." and colon separators |
| PromptAssembly.RenderIgnoresIdAndLabel | app_code/langgraph_app/graph.py:31 | the document id and item label do not appear in an entry |
| PromptAssembly.RenderAll | app_code/langgraph_app/graph.py:30-32 | for any renderer: one entry per hit, in hit order, or the error of the first hit that cannot be rendered |
| PromptAssembly.RenderAllIs | app_code/langgraph_app/graph.py:30-32 | the entry list is determined by the hits: a list holding each hit's entry, in order, is the result |
| PromptAssembly.RenderAllAppend | app_code/langgraph_app/graph.py:30-32 | the entries of two hit lists, concatenated, are the entries of their concatenation |
| PromptAssembly.AssembleContext | app_code/langgraph_app/graph.py:30-32 | the context exists exactly when every hit renders; no hits give the empty context; one hit gives its entry |
| PromptAssembly.ContextAppend | app_code/langgraph_app/graph.py:30-32 | the context of two hit lists is their contexts joined by a blank line, so n hits give n entries and n − 1 separators |
| PromptAssembly.UserPrompt | app_code/langgraph_app/graph.py:33 | the prompt starts with "User question: " and the question, ends with "\n\nContext:\n" and the context, and has nothing else |
| PromptAssembly.UserPromptInjective | app_code/langgraph_app/graph.py:33 | question and context can be read back from the prompt given the question's length |
| Citations.CloseAt | eval/run_eval.py:4 | the non-greedy group ends at the first `]`, and there is none when a line feed comes first |
| Citations.BracketGroups | eval/run_eval.py:4 | no group holds `]` or a line feed; an answer without `[` has no groups |
| Citations.BracketGroupsAppend | eval/run_eval.py:4 | text without `[` is skipped and a closed group is read whole, after which the scan resumes |
| Citations.ItemAt | eval/run_eval.py:5 | a match at the start yields a non-empty run of ASCII letters and digits |
| Citations.ItemAtMatch | eval/run_eval.py:5 | a group is found at the start exactly when `item`, in any case, is followed by whitespace and a run of letters and digits there, and the group is that whole run |
| Citations.MatchShape | eval/run_eval.py:5 | a match takes the whole whitespace run and then the whole run of letters and digits |
| Citations.ItemSearch | eval/run_eval.py:25 | a found group is a non-empty run of ASCII letters and digits |
| Citations.ItemSearchLeftmost | eval/run_eval.py:25 | the search reports the match at the leftmost position that has one, and nothing when no position has one |
| Citations.ItemSearchFinds | eval/run_eval.py:5 | after text holding no `item` in any case, "Item " and an identifier yield the whole identifier, up to the first non-alphanumeric character |
| Citations.NoItemAtStart | eval/run_eval.py:5 | no match starts inside text without `item` that is followed by "Item" |
| Citations.ExtractItemLabels | eval/run_eval.py:21-28 | one label per bracket group that holds an item reference, so the number of labels is the number of such groups; every label is "Item " followed by a non-empty upper-case alphanumeric identifier; no `[` gives no labels |
| Citations.LabelOf | eval/run_eval.py:26-27 | the label is "Item " and the found identifier upper-cased, equal to it up to case |
| Citations.LabelsOfSound | eval/run_eval.py:21-28 | every label is the label of some bracket group that holds an item reference |
| Citations.LabelsOfComplete | eval/run_eval.py:21-28 | every bracket group that holds an item reference contributes its label |
| Citations.CitedLabel | eval/run_eval.py:21-28 | a citation "[<filing> Item <id>]" whose filing part holds no `item` in any case yields the label "Item <ID>", followed by the labels of the rest of the answer |
| Citations.BulletMatch | eval/run_eval.py:32 | a match of `\s*(?:\*|•)\s+` is non-empty and holds a bullet character |
| Citations.CountQuotes | eval/run_eval.py:30-32 | the quote count never exceeds the number of bullet characters |
| Citations.QuotesSkipLine | eval/run_eval.py:32 | away from the start, text without a line feed holds no match |
| Citations.NewlineActsAsStart | eval/run_eval.py:32 | a line feed counts as the start of the answer |
| Citations.CountBulletLines | eval/run_eval.py:30-32 | an answer made of n bullet lines, joined by line feeds, counts n quotes |
| Citations.MultiQuoteFlag | eval/run_eval.py:109 | MQS is 1 exactly when the quote count is at least 2, and 0 otherwise |
| Citations.MultiQuoteFlagCases | eval/run_eval.py:109 | two bullet lines earn MQS; an answer without a bullet character never does |
| Citations.CitedItemFlag | eval/run_eval.py:107-108 | CIM is 1 exactly when some expected item, stripped and lower-cased, equals some extracted label, lower-cased |
| Citations.AnyExpectedIn | eval/run_eval.py:107-108 | 1 exactly when some expected item, stripped and lower-cased, is one of the given items, else 0 |
| Citations.CitedItemEarnsFlag | eval/run_eval.py:98-108 | citing an expected item in the "[<filing> Item <id>]" format, with no `item` in the filing part, earns CIM, whatever the case and surrounding blanks of the expected entry |
| Metrics.KeywordCoverage | eval/run_eval.py:34-39 | the coverage is 1 for no keywords, and otherwise the number of keywords occurring in the answer, ignoring case, divided by the number of keywords; it lies in [0, 1]; it is 1 exactly when every keyword occurs in the answer ignoring case, and 0 exactly when none does |
| Metrics.CoverageCount | eval/run_eval.py:38 | the hit count equals the number of keywords exactly when all are covered, and is 0 exactly when none is |
| Metrics.CoverageIgnoresCase | eval/run_eval.py:35-38 | upper-casing the answer does not change the coverage |
| Metrics.WordSet | eval/run_eval.py:42-43 | the set holds exactly the maximal `\w` runs of the lower-cased text longer than two characters |
| Metrics.WordSetOfWord | eval/run_eval.py:42-43 | a whole word of more than two word characters yields exactly that word, lower-cased |
| Metrics.WordSetSplit | eval/run_eval.py:42-43 | a character outside `\w` separates the words of the two sides |
| Metrics.Jaccard | eval/run_eval.py:41-46 | 0 when either answer has no long word; the value lies in [0, 1]; it is 1 exactly when both word sets are equal and non-empty |
| Metrics.JaccardSymmetric | eval/run_eval.py:41-46 | the similarity does not depend on the order of the answers |
| Metrics.JaccardIgnoresCase | eval/run_eval.py:42-43 | upper-casing an answer does not change the similarity |
| Metrics.CoveredCount | eval/run_eval.py:38 | the number of keywords found is the number of covered keyword positions |
| Metrics.TargetPercent | eval/run_eval.py:50 | the threshold is the integer nearest to frac × 100, an exact half going to the even neighbour |
| Metrics.RoundHalfEven | eval/run_eval.py:50 | the result is within one half of the argument, and an exact half goes to the even neighbour |
| Metrics.RoundMonotone | eval/run_eval.py:50 | rounding is monotone |
| Metrics.Bucket | eval/run_eval.py:53 | a bucket is below 100 |
| Metrics.DeterministicSample | eval/run_eval.py:48-56 | no ids for a non-positive fraction; for a positive fraction, the picks are exactly the input ids whose bucket is below the rounded percentage |
| Metrics.SampleMonotone | eval/run_eval.py:48-56 | a larger fraction samples a superset |
| Metrics.SampleOfConcat | eval/run_eval.py:48-56 | the sample of a concatenation is the union of the samples, so whether an id is picked depends on that id alone |
| Metrics.SampleAll | eval/run_eval.py:48-56 | a fraction rounding to 100 per cent or more picks every id |
| Metrics.AggregationKey | eval/run_eval.py:135-139 | no key exactly when the ticker is missing or empty; with a truthy type and year the key is ticker, year and filing type separated by single blanks; otherwise the ticker alone |
| Metrics.KeyHasBlank | eval/run_eval.py:137 | for a ticker without blanks, the key has a blank exactly when it is the full "ticker year type" key |
| Metrics.AggregationKeyInjective | eval/run_eval.py:135-139 | with blank-free tickers, equal keys mean the same ticker, and the same year and filing type when the key is the full one |

## Left out

- Network and SDK plumbing is not modelled. That covers the OpenSearch client and `client.search`, the Bedrock `embed` and `generate` calls, and `post_chat`, because they are I/O. The search service is a function parameter, and the embedding vector is an input.
- `scripts/create_index.py` is not part of this model. It is static index configuration sent over the network.
- `run` in graph.py calls `search(vec, k=8)` without the required question argument, so as written every call raises a `TypeError`. The prompt assembly is modelled over a given hit list, independent of that call site.
- Fingerprints.Fingerprint: the md5 digest is replaced by the normalized prefix itself. md5 collisions, which could merge distinct texts, are therefore not modelled.
- Metrics.Bucket: the md5 digest of an id is the parameter `digest16`, because md5 internals are out of scope.
- Scoring.Score: scores are exact hundredths. IEEE float rounding, which could create or break ties that exact arithmetic does not, is not modelled.
- Metrics.DeterministicSample: the percentage `frac * 100` is exact here. In the source it is a float product and may round differently near a half.
- Metrics.KeywordCoverage: the ratio is an exact rational. The source divides in floating point, so its value may differ from the exact ratio in the last place.
- Metrics.Jaccard: the ratio is an exact rational. The source divides in floating point, as for the coverage.
- Citations.ItemSearchFinds: stated for leading text that holds no `item` in any case. The source also passes over an `item` that no whitespace and identifier follow, as in "Itemized"; that case is covered only through Citations.ItemSearchLeftmost and Citations.ItemAtMatch.
- Citations.CitedLabel: the filing part must hold no `item` in any case, for the reason given for Citations.ItemSearchFinds.
- Citations.CitedItemEarnsFlag: the same restriction on the filing part as Citations.CitedLabel.
- Character classes are ASCII only. That covers `\s`, `\w`, `\b`, `str.split()`, `lower()` and `upper()`, and case-insensitive matching. Unicode whitespace, non-ASCII letters and special case mappings are out of scope.
- Python semantics are simplified in a few places:
  - A JSON `null` in a hit or a question row is treated as a missing key. The source would raise on `.lower()` or render the text `None`.
  - A question `None`, which `search` turns into `""` for the ticker guess, is not modelled, because `_score` would then fail on it.
  - The year and page are integers.
- Evaluation bookkeeping is not modelled:
  - `round(..., 3)` and the averages;
  - median and p95 latency;
  - grouping rows under their aggregation key;
  - argument parsing, reading questions, and writing JSON and Markdown.

  These are I/O or float reporting on top of the modelled values.
- The index name, credentials and environment variables are configuration, not logic.

=== FILE: chunks.dfy ===
/** A search hit's `_source` record as the retrieval code reads it. Every
    field is optional: the code reads each with `dict.get` (or indexes it and
    fails when it is missing), so an absent key is `None` here. Years and
    pages are integers, as the index mapping declares them. */
module Chunks {

  import opened Wrappers

  datatype Chunk = Chunk(
    docId: Option<string>,
    ticker: Option<string>,
    filingType: Option<string>,
    filingYear: Option<int>,
    itemLabel: Option<string>,
    page: Option<int>,
    text: Option<string>)
  {
    /** `s.get("text", "")` */
    function Text(): string {
      text.GetOr("")
    }
  }
}

=== FILE: citations.dfy ===
/** The citation scanners of the evaluation: bracketed citation groups with
    the item label inside them, and bullet lines counted as quotations. Each
    regular expression is modelled by the scan Python's `re` performs for it:
    leftmost match first, then the next search from the end of the match. */
module Citations {

  import opened Wrappers
  import opened Strings
  import opened Counting

  // ---- bracket groups: `\[(.*?)\]` with `finditer` ----

  /** The index in `t` of the first `]`, provided no line feed comes before
      it: the shortest `.*?` that lets `\]` match, where `.` does not match
      a line feed. */
  function CloseAt(t: string): (r: Option<nat>)
    ensures r.Some? ==> r.value < |t| && t[r.value] == ']'
    ensures r.Some? ==> forall i :: 0 <= i < r.value ==> t[i] != ']' && t[i] != '\n'
    ensures r.None? ==> forall i :: 0 <= i < |t| && t[i] == ']' ==> exists j :: 0 <= j < i && t[j] == '\n'
    decreases |t|
  {
    if |t| == 0 then None
    else if t[0] == ']' then Some(0)
    else if t[0] == '\n' then None
    else match CloseAt(t[1..])
      case None =>
        assert forall i :: 1 <= i < |t| ==> t[i] == t[1..][i - 1];
        None
      case Some(j) =>
        assert forall i :: 1 <= i < j + 1 ==> t[i] == t[1..][i - 1];
        Some(j + 1)
  }

  /** The contents of the bracket groups, left to right. A `[` without a
      closing `]` on its line starts no group, and the scan goes on at the
      next character. */
  function BracketGroups(s: string): (r: seq<string>)
    ensures forall k :: 0 <= k < |r| ==> forall i :: 0 <= i < |r[k]| ==> r[k][i] != ']' && r[k][i] != '\n'
    ensures (forall i :: 0 <= i < |s| ==> s[i] != '[') ==> r == []
    decreases |s|
  {
    if |s| == 0 then []
    else if s[0] == '[' then
      match CloseAt(s[1..])
      case Some(j) => [s[1..][..j]] + BracketGroups(s[1..][j + 1..])
      case None => BracketGroups(s[1..])
    else
      assert forall i :: 0 <= i < |s| - 1 ==> s[1..][i] == s[i + 1];
      BracketGroups(s[1..])
  }

  /** Plain text is skipped and a closed group is read whole: the groups of
      `t + "[" + c + "]" + rest`, with no `[` in `t` and neither `]` nor a
      line feed in `c`, are `c` and then the groups of `rest`. */
  lemma {:induction false} BracketGroupsAppend(t: string, c: string, rest: string)
    requires forall i :: 0 <= i < |t| ==> t[i] != '['
    requires forall i :: 0 <= i < |c| ==> c[i] != ']' && c[i] != '\n'
    ensures BracketGroups(t + "[" + c + "]" + rest) == [c] + BracketGroups(rest)
    decreases |t|
  {
    var s := t + "[" + c + "]" + rest;
    if |t| == 0 {
      assert s[1..] == c + "]" + rest;
      CloseAfter(c, rest);
      assert s[1..][..|c|] == c;
      assert s[1..][|c| + 1..] == rest;
    } else {
      assert s[1..] == t[1..] + "[" + c + "]" + rest;
      BracketGroupsAppend(t[1..], c, rest);
    }
  }

  lemma {:induction false} CloseAfter(c: string, rest: string)
    requires forall i :: 0 <= i < |c| ==> c[i] != ']' && c[i] != '\n'
    ensures CloseAt(c + "]" + rest) == Some(|c|)
    decreases |c|
  {
    if |c| > 0 {
      assert (c + "]" + rest)[1..] == c[1..] + "]" + rest;
      CloseAfter(c[1..], rest);
    }
  }

  // ---- the item label: `item\s+([0-9a-zA-Z]+)` under `re.I`, `search` ----

  /** The number of leading whitespace characters. */
  function SpaceRun(s: string): (n: nat)
    ensures n <= |s|
    ensures forall i :: 0 <= i < n ==> IsSpace(s[i])
    ensures n == |s| || !IsSpace(s[n])
    decreases |s|
  {
    if |s| > 0 && IsSpace(s[0]) then 1 + SpaceRun(s[1..]) else 0
  }

  /** The longest prefix of ASCII letters and digits. */
  function AlnumRun(s: string): (r: string)
    ensures |r| <= |s| && r == s[..|r|]
    ensures forall i :: 0 <= i < |r| ==> IsAlnum(r[i])
    ensures |r| == |s| || !IsAlnum(s[|r|])
    decreases |s|
  {
    if |s| > 0 && IsAlnum(s[0]) then [s[0]] + AlnumRun(s[1..]) else ""
  }

  const ItemWord := "item"

  /** A match of `item\s+([0-9a-zA-Z]+)` at the start of `s`, case-insensitive
      on the word, with `gap` whitespace characters and the group `id`. The
      group is as long as the greedy `+` makes it: the character after it, if
      any, is not a letter or digit. */
  ghost predicate ItemMatch(s: string, gap: nat, id: string) {
    && 4 + gap + |id| <= |s|
    && Lower(s[..4]) == ItemWord
    && 0 < gap && (forall i :: 4 <= i < 4 + gap ==> IsSpace(s[i]))
    && 0 < |id| && s[4 + gap..4 + gap + |id|] == id
    && (forall i :: 0 <= i < |id| ==> IsAlnum(id[i]))
    && (4 + gap + |id| == |s| || !IsAlnum(s[4 + gap + |id|]))
  }

  /** The group of the match at the start of `s`, if there is one: `item` in
      any case, at least one whitespace character, then the longest run of
      letters and digits, which must not be empty. */
  function ItemAt(s: string): (r: Option<string>)
    ensures r.Some? ==> IsAlnumId(r.value)
  {
    if |s| < 4 || Lower(s[..4]) != ItemWord then None
    else
      var gap := SpaceRun(s[4..]);
      var id := AlnumRun(s[4 + gap..]);
      if gap == 0 || |id| == 0 then None else Some(id)
  }

  /** `ItemAt` finds a match exactly when there is one, and then its group. */
  lemma ItemAtMatch(s: string)
    ensures ItemAt(s).Some? ==> exists gap :: ItemMatch(s, gap, ItemAt(s).value)
    ensures forall gap, id :: ItemMatch(s, gap, id) ==> ItemAt(s) == Some(id)
  {
    forall gap, id | ItemMatch(s, gap, id)
      ensures ItemAt(s) == Some(id)
    {
      MatchShape(s, gap, id);
    }
    if ItemAt(s).Some? {
      var gap := SpaceRun(s[4..]);
      assert ItemMatch(s, gap, ItemAt(s).value);
    }
  }

  /** A match fixes its gap and group: the whole whitespace run, then the
      whole run of letters and digits. */
  lemma MatchShape(s: string, gap: nat, id: string)
    requires ItemMatch(s, gap, id)
    ensures gap == SpaceRun(s[4..]) && id == AlnumRun(s[4 + gap..])
  {
    var t := s[4..];
    assert t[gap] == id[0];
    assert forall i :: 0 <= i < gap ==> t[i] == s[4 + i];
    var u := s[4 + gap..];
    assert u == id + s[4 + gap + |id|..];
    AlnumRunOf(id, s[4 + gap + |id|..]);
  }

  /** `ITEM_RE.search(content)`: the group of the leftmost match. */
  function ItemSearch(s: string): (r: Option<string>)
    ensures r.Some? ==> IsAlnumId(r.value)
    decreases |s|
  {
    if |s| == 0 then None
    else if ItemAt(s).Some? then ItemAt(s)
    else ItemSearch(s[1..])
  }

  /** The search reports the match at the leftmost position that has one, and
      nothing when no position has one. */
  lemma {:induction false} ItemSearchLeftmost(s: string)
    ensures ItemSearch(s).Some? ==>
              exists j :: 0 <= j < |s| && ItemAt(s[j..]) == ItemSearch(s)
                          && forall k :: 0 <= k < j ==> ItemAt(s[k..]).None?
    ensures ItemSearch(s).None? ==> forall j :: 0 <= j < |s| ==> ItemAt(s[j..]).None?
    decreases |s|
  {
    if |s| > 0 {
      assert s[0..] == s;
      if ItemAt(s).None? {
        var r := ItemSearch(s[1..]);
        ItemSearchLeftmost(s[1..]);
        if r.Some? {
          var j :| 0 <= j < |s| - 1 && ItemAt(s[1..][j..]) == r
                   && forall k :: 0 <= k < j ==> ItemAt(s[1..][k..]).None?;
          assert s[1..][j..] == s[j + 1..];
          forall k | 1 <= k < j + 1
            ensures ItemAt(s[k..]).None?
          {
            assert s[1..][k - 1..] == s[k..];
          }
        } else {
          forall j | 1 <= j < |s|
            ensures ItemAt(s[j..]).None?
          {
            assert s[1..][j - 1..] == s[j..];
          }
        }
      }
    }
  }

  predicate IsAlnumId(x: string) {
    |x| > 0 && forall i :: 0 <= i < |x| ==> IsAlnum(x[i])
  }

  /** An upper-case item identifier: letters and digits, no lower-case
      letter. */
  predicate IsItemId(x: string) {
    |x| > 0 && forall i :: 0 <= i < |x| ==> IsAlnum(x[i]) && !IsLower(x[i])
  }

  const ItemPrefix := "Item "

  /** A bracket group holds an item reference. */
  predicate HasItemRef(g: string) {
    ItemSearch(g).Some?
  }

  /** The label of a group that holds an item reference. */
  function LabelOf(g: string): (lab: string)
    requires HasItemRef(g)
    ensures StartsWith(lab, ItemPrefix) && IsItemId(lab[|ItemPrefix|..])
    ensures Lower(lab[|ItemPrefix|..]) == Lower(ItemSearch(g).value)
  {
    var id := ItemSearch(g).value;
    var lab := ItemPrefix + Upper(id);
    assert lab[|ItemPrefix|..] == Upper(id);
    lab
  }

  /** `extract_item_labels`: `"Item "` and the upper-cased identifier, one
      label for each bracket group that holds an item reference, in the
      order of the groups. */
  function ExtractItemLabels(answer: string): (labels: seq<string>)
    ensures |labels| == Count(BracketGroups(answer), HasItemRef)
    ensures forall k :: 0 <= k < |labels| ==>
              StartsWith(labels[k], ItemPrefix) && IsItemId(labels[k][|ItemPrefix|..])
    ensures (forall i :: 0 <= i < |answer| ==> answer[i] != '[') ==> labels == []
  {
    LabelsOf(BracketGroups(answer))
  }

  function LabelsOf(groups: seq<string>): (labels: seq<string>)
    ensures |labels| == Count(groups, HasItemRef)
    ensures forall k :: 0 <= k < |labels| ==>
              StartsWith(labels[k], ItemPrefix) && IsItemId(labels[k][|ItemPrefix|..])
    decreases |groups|
  {
    if |groups| == 0 then []
    else
      var rest := LabelsOf(groups[1..]);
      CountCons(groups, HasItemRef);
      if HasItemRef(groups[0]) then [LabelOf(groups[0])] + rest else rest
  }

  /** `Count` read from the front. */
  lemma CountCons<T>(xs: seq<T>, p: T -> bool)
    requires |xs| > 0
    ensures Count(xs, p) == (if p(xs[0]) then 1 else 0) + Count(xs[1..], p)
  {
    CountAppend([xs[0]], xs[1..], p);
    assert [xs[0]] + xs[1..] == xs;
    assert [xs[0]][..0] == [];
  }

  /** Every label is the label of a group holding an item reference. */
  lemma {:induction false} LabelsOfSound(groups: seq<string>)
    ensures forall k :: 0 <= k < |LabelsOf(groups)| ==>
              exists i :: 0 <= i < |groups| && HasItemRef(groups[i]) && LabelsOf(groups)[k] == LabelOf(groups[i])
    decreases |groups|
  {
    if |groups| > 0 {
      var rest := LabelsOf(groups[1..]);
      LabelsOfSound(groups[1..]);
      var labs := LabelsOf(groups);
      var d := if HasItemRef(groups[0]) then 1 else 0;
      assert labs == (if d == 1 then [LabelOf(groups[0])] else []) + rest;
      forall k | 0 <= k < |labs|
        ensures exists i :: 0 <= i < |groups| && HasItemRef(groups[i]) && labs[k] == LabelOf(groups[i])
      {
        if k < d {
          assert HasItemRef(groups[0]) && labs[k] == LabelOf(groups[0]);
        } else {
          assert labs[k] == rest[k - d];
          var i :| 0 <= i < |groups| - 1 && HasItemRef(groups[1..][i]) && rest[k - d] == LabelOf(groups[1..][i]);
          assert groups[1..][i] == groups[i + 1];
          assert HasItemRef(groups[i + 1]) && labs[k] == LabelOf(groups[i + 1]);
        }
      }
    } else {
      assert LabelsOf(groups) == [];
    }
  }

  /** Every group holding an item reference contributes its label. */
  lemma {:induction false} LabelsOfComplete(groups: seq<string>)
    ensures forall i :: 0 <= i < |groups| && HasItemRef(groups[i]) ==> LabelOf(groups[i]) in LabelsOf(groups)
    decreases |groups|
  {
    if |groups| > 0 {
      var rest := LabelsOf(groups[1..]);
      LabelsOfComplete(groups[1..]);
      var labs := LabelsOf(groups);
      var d := if HasItemRef(groups[0]) then 1 else 0;
      assert labs == (if d == 1 then [LabelOf(groups[0])] else []) + rest;
      forall i | 1 <= i < |groups| && HasItemRef(groups[i])
        ensures LabelOf(groups[i]) in labs
      {
        assert groups[1..][i - 1] == groups[i];
        assert LabelOf(groups[i]) in rest;
      }
    }
  }

  /** Leading text that holds no `item`, in any case, is passed over, and the
      identifier after `Item ` ends at the first character that is not a
      letter or digit. */
  lemma {:induction false} ItemSearchFinds(pre: string, id: string, post: string)
    requires !Occurs(ItemWord, Lower(pre))
    requires |id| > 0 && forall i :: 0 <= i < |id| ==> IsAlnum(id[i])
    requires |post| == 0 || !IsAlnum(post[0])
    ensures ItemSearch(pre + "Item " + id + post) == Some(id)
    decreases |pre|
  {
    var s := pre + "Item " + id + post;
    if |pre| == 0 {
      assert s == "Item " + id + post;
      ItemAtCitation(id, post);
    } else {
      NoItemAtStart(pre, s);
      assert s[1..] == pre[1..] + "Item " + id + post;
      OccursInTail(ItemWord, Lower(pre));
      assert Lower(pre[1..]) == Lower(pre)[1..];
      ItemSearchFinds(pre[1..], id, post);
    }
  }

  lemma ItemAtCitation(id: string, post: string)
    requires |id| > 0 && forall i :: 0 <= i < |id| ==> IsAlnum(id[i])
    requires |post| == 0 || !IsAlnum(post[0])
    ensures ItemAt("Item " + id + post) == Some(id)
  {
    var s := "Item " + id + post;
    assert s[..4] == "Item";
    assert s[4..] == " " + id + post;
    assert SpaceRun(s[4..]) == 1 by {
      assert s[4..][1..] == id + post;
    }
    assert s[5..] == id + post;
    AlnumRunOf(id, post);
  }

  /** No match starts in text without `item` that is followed by `Item`:
      `item` has no proper suffix that is also a prefix, so a match cannot
      straddle the boundary. */
  lemma NoItemAtStart(pre: string, s: string)
    requires |pre| > 0 && !Occurs(ItemWord, Lower(pre))
    requires StartsWith(s, pre + "Item")
    ensures ItemAt(s).None?
  {
    var w := Lower(s[..4]);
    if |pre| >= 4 {
      assert s[..4] == pre[..4];
      assert Lower(pre)[0..4] == w;
      assert !OccursAt(ItemWord, Lower(pre), 0);
    } else {
      assert s[|pre|] == (pre + "Item")[|pre|] == 'I';
      assert w[|pre|] == 'i' != ItemWord[|pre|];
    }
  }

  lemma {:induction false} AlnumRunOf(id: string, post: string)
    requires forall i :: 0 <= i < |id| ==> IsAlnum(id[i])
    requires |post| == 0 || !IsAlnum(post[0])
    ensures AlnumRun(id + post) == id
    decreases |id|
  {
    if |id| > 0 {
      assert (id + post)[1..] == id[1..] + post;
      AlnumRunOf(id[1..], post);
    }
  }

  /** A citation in the bracketed form the scanner reads, `[<filing> — Item <id>]`,
      yields the label `Item <ID>`, and scanning goes on after it. */
  lemma CitedLabel(t: string, filing: string, id: string, rest: string)
    requires forall i :: 0 <= i < |t| ==> t[i] != '['
    requires !Occurs(ItemWord, Lower(filing))
    requires forall i :: 0 <= i < |filing| ==> filing[i] != ']' && filing[i] != '\n'
    requires |id| > 0 && forall i :: 0 <= i < |id| ==> IsAlnum(id[i])
    ensures ExtractItemLabels(t + "[" + filing + "Item " + id + "]" + rest)
            == [ItemPrefix + Upper(id)] + ExtractItemLabels(rest)
  {
    var c := filing + "Item " + id;
    CitationContent(filing, id);
    assert t + "[" + filing + "Item " + id + "]" + rest == t + "[" + c + "]" + rest;
    BracketGroupsAppend(t, c, rest);
    assert c + "" == c;
    ItemSearchFinds(filing, id, "");
    LabelsOfCons(c, BracketGroups(rest));
  }

  lemma CitationContent(filing: string, id: string)
    requires forall i :: 0 <= i < |filing| ==> filing[i] != ']' && filing[i] != '\n'
    requires forall i :: 0 <= i < |id| ==> IsAlnum(id[i])
    ensures var c := filing + "Item " + id; forall i :: 0 <= i < |c| ==> c[i] != ']' && c[i] != '\n'
  {
    var c := filing + "Item " + id;
    forall i | 0 <= i < |c|
      ensures c[i] != ']' && c[i] != '\n'
    {
      if i >= |filing| + 5 {
        assert c[i] == id[i - |filing| - 5];
      }
    }
  }

  lemma LabelsOfCons(c: string, groups: seq<string>)
    ensures LabelsOf([c] + groups)
            == match ItemSearch(c)
               case None => LabelsOf(groups)
               case Some(id) => [ItemPrefix + Upper(id)] + LabelsOf(groups)
  {
    assert ([c] + groups)[1..] == groups;
  }

  // ---- bullet lines: `(^|\n)\s*(?:\*|•)\s+` with `findall` ----

  const Bullet := '•'

  predicate IsBulletChar(c: char) { c == '*' || c == Bullet }

  /** The length of a match of `\s*(?:\*|•)\s+` at the start of `s`. The
      classes are disjoint, so the greedy match needs no backtracking. */
  function BulletMatch(s: string): (r: Option<nat>)
    ensures r.Some? ==> 0 < r.value <= |s| && exists q :: 0 <= q < r.value && IsBulletChar(s[q])
  {
    var q := SpaceRun(s);
    if q + 1 < |s| && IsBulletChar(s[q]) && IsSpace(s[q + 1]) then
      Some(q + 1 + SpaceRun(s[q + 1..]))
    else None
  }

  /** The number of matches in `s`. `atStart` says whether `s` begins the
      answer, where `^` matches; elsewhere a match must begin at a line
      feed. */
  function Quotes(s: string, atStart: bool): (n: nat)
    decreases |s|
  {
    if |s| == 0 then 0
    else if (atStart || s[0] == '\n') && BulletMatch(s).Some? then
      1 + Quotes(s[BulletMatch(s).value..], false)
    else Quotes(s[1..], false)
  }

  /** `count_quotes`: every match holds its own bullet character, so there
      are at most as many quotes as bullet characters. */
  function CountQuotes(answer: string): (n: nat)
    ensures n <= Count(answer, IsBulletChar)
  {
    QuotesAtMostBullets(answer, true);
    Quotes(answer, true)
  }

  /** Every match holds its own bullet character. */
  lemma {:induction false} QuotesAtMostBullets(s: string, atStart: bool)
    ensures Quotes(s, atStart) <= Count(s, IsBulletChar)
    decreases |s|
  {
    if |s| > 0 {
      if (atStart || s[0] == '\n') && BulletMatch(s).Some? {
        var e := BulletMatch(s).value;
        QuotesAtMostBullets(s[e..], false);
        var q :| 0 <= q < e && IsBulletChar(s[q]);
        CountSuffix(s, e, q, IsBulletChar);
      } else {
        QuotesAtMostBullets(s[1..], false);
        CountSuffix(s, 1, -1, IsBulletChar);
      }
    }
  }

  /** Away from the start, text without a line feed holds no match. */
  lemma {:induction false} QuotesSkipLine(x: string, y: string)
    requires forall i :: 0 <= i < |x| ==> x[i] != '\n'
    ensures Quotes(x + y, false) == Quotes(y, false)
    decreases |x|
  {
    if |x| > 0 {
      var s := x + y;
      assert s[0] == x[0] && s[1..] == x[1..] + y;
      assert Quotes(s, false) == Quotes(s[1..], false);
      QuotesSkipLine(x[1..], y);
    } else {
      assert x + y == y;
    }
  }

  /** A leading line feed is one more blank before the bullet. */
  lemma BulletMatchShift(s: string)
    ensures BulletMatch("\n" + s) == if BulletMatch(s).Some? then Some(1 + BulletMatch(s).value) else None
  {
    var t := "\n" + s;
    assert t[1..] == s;
    assert SpaceRun(t) == 1 + SpaceRun(s);
    var q := SpaceRun(s);
    if q + 1 < |s| {
      assert t[q + 1] == s[q] && t[q + 2] == s[q + 1];
      assert t[q + 2..] == s[q + 1..];
    }
  }

  /** A line feed acts as the start of the answer. */
  lemma NewlineActsAsStart(s: string)
    ensures Quotes("\n" + s, false) == Quotes(s, true)
  {
    var t := "\n" + s;
    BulletMatchShift(s);
    if BulletMatch(s).Some? {
      assert t[1 + BulletMatch(s).value..] == s[BulletMatch(s).value..];
    } else {
      assert t[1..] == s;
      assert Quotes(t, false) == Quotes(s, false);
    }
  }

  /** A bullet line: a bullet, whitespace, then text that starts with a
      non-space character, all on one line. */
  predicate IsBulletLine(l: string) {
    && |l| >= 3
    && IsBulletChar(l[0]) && IsSpace(l[1]) && !IsSpace(l[2])
    && forall i :: 0 <= i < |l| ==> l[i] != '\n'
  }

  /** A bullet line followed by `rest` is one match, and the scan resumes
      inside the line's text. */
  lemma BulletLineMatch(l: string, rest: string)
    requires IsBulletLine(l)
    ensures Quotes(l + rest, true) == 1 + Quotes(l[2..] + rest, false)
  {
    var s := l + rest;
    assert SpaceRun(s) == 0;
    assert s[1..][1..] == s[2..];
    assert SpaceRun(s[1..]) == 1;
    assert BulletMatch(s) == Some(2);
    assert s[2..] == l[2..] + rest;
  }

  /** Answers made of bullet lines: `count_quotes` counts every line. */
  lemma {:induction false} CountBulletLines(lines: seq<string>)
    requires forall k :: 0 <= k < |lines| ==> IsBulletLine(lines[k])
    ensures CountQuotes(Join("\n", lines)) == |lines|
    decreases |lines|
  {
    if |lines| == 1 {
      BulletLineMatch(lines[0], "");
      QuotesSkipLine(lines[0][2..], "");
      assert lines[0] + "" == lines[0];
      assert lines[0][2..] + "" == lines[0][2..];
    } else if |lines| > 1 {
      var l := lines[0];
      var j := Join("\n", lines[1..]);
      CountBulletLines(lines[1..]);
      assert Join("\n", lines) == l + ("\n" + j);
      BulletLineMatch(l, "\n" + j);
      QuotesSkipLine(l[2..], "\n" + j);
      NewlineActsAsStart(j);
    }
  }

  /** MQS: 1 exactly when the answer has at least two quotations. */
  function MultiQuoteFlag(answer: string): (f: int)
    ensures f == 0 || f == 1
    ensures f == 1 <==> CountQuotes(answer) >= 2
  {
    if CountQuotes(answer) >= 2 then 1 else 0
  }

  /** Two bullet lines earn the flag; an answer without a bullet character
      never does. */
  lemma MultiQuoteFlagCases(a: string, b: string, answer: string)
    requires IsBulletLine(a) && IsBulletLine(b)
    ensures MultiQuoteFlag(a + "\n" + b) == 1
    ensures Count(answer, IsBulletChar) == 0 ==> MultiQuoteFlag(answer) == 0
  {
    CountBulletLines([a, b]);
    assert Join("\n", [a, b]) == a + "\n" + b by {
      assert [a, b][1..] == [b];
    }
  }

  // ---- CIM: some expected item among the labels ----

  /** Every string lower-cased. */
  function LowerAll(xs: seq<string>): (r: seq<string>)
    ensures |r| == |xs| && forall i :: 0 <= i < |xs| ==> r[i] == Lower(xs[i])
  {
    seq(|xs|, i requires 0 <= i < |xs| => Lower(xs[i]))
  }

  /** Some expected item, stripped and lower-cased, is one of `items`. */
  ghost predicate SomeExpectedFound(expected: seq<string>, items: seq<string>) {
    exists e, x :: 0 <= e < |expected| && 0 <= x < |items| && Lower(Strip(expected[e])) == items[x]
  }

  /** CIM: 1 exactly when some expected item, stripped and lower-cased,
      equals some extracted label, lower-cased. */
  function CitedItemFlag(answer: string, expected: seq<string>): (f: int)
    ensures f == 0 || f == 1
    ensures f == 1 <==> SomeExpectedFound(expected, LowerAll(ExtractItemLabels(answer)))
  {
    AnyExpectedIn(expected, LowerAll(ExtractItemLabels(answer)))
  }

  /** `int(any(e.strip().lower() in items for e in expected))` */
  function AnyExpectedIn(expected: seq<string>, items: seq<string>): (f: int)
    ensures f == 0 || f == 1
    ensures f == 1 <==> SomeExpectedFound(expected, items)
  {
    if exists e :: 0 <= e < |expected| && Lower(Strip(expected[e])) in items then
      var e :| 0 <= e < |expected| && Lower(Strip(expected[e])) in items;
      var x :| 0 <= x < |items| && items[x] == Lower(Strip(expected[e]));
      1
    else 0
  }

  /** An answer that cites an expected item in the bracketed citation form
      earns the flag, whatever the case and the surrounding whitespace of the
      expected entry. */
  lemma CitedItemEarnsFlag(t: string, filing: string, id: string, rest: string,
                           expected: seq<string>, e: int)
    requires forall i :: 0 <= i < |t| ==> t[i] != '['
    requires !Occurs(ItemWord, Lower(filing))
    requires forall i :: 0 <= i < |filing| ==> filing[i] != ']' && filing[i] != '\n'
    requires |id| > 0 && forall i :: 0 <= i < |id| ==> IsAlnum(id[i])
    requires 0 <= e < |expected| && Lower(Strip(expected[e])) == Lower(ItemPrefix + Upper(id))
    ensures CitedItemFlag(t + "[" + filing + "Item " + id + "]" + rest, expected) == 1
  {
    var answer := t + "[" + filing + "Item " + id + "]" + rest;
    CitedLabel(t, filing, id, rest);
    var items := LowerAll(ExtractItemLabels(answer));
    assert items[0] == Lower(ItemPrefix + Upper(id));
  }
}

=== FILE: context.dfy ===
/** The answer path of the agent after retrieval: every returned hit is
    rendered as one context entry, the entries are joined with blank lines,
    and the question and context form the user prompt handed to the text
    model. Rendering indexes the ticker, year, filing type and text of a hit,
    so a hit without one of them makes the whole run fail; the page is read
    with a default of 1. */
module PromptAssembly {

  import opened Wrappers
  import opened Strings
  import opened Chunks

  /** The keys an entry indexes directly, in the order the entry reads them. */
  datatype Field = TickerKey | FilingYearKey | FilingTypeKey | TextKey

  datatype AssemblyError =
    | MissingField(field: Field)  // a `KeyError` while rendering an entry

  /** At most this many characters of a hit's text reach the prompt. */
  const ClipLength := 400

  /** The page shown for a hit without one. */
  const DefaultPage := 1

  const EntrySeparator := "\n\n"
  const QuestionLabel := "User question: "
  const ContextLabel := "\n\nContext:\n"

  /** `s[:n]` */
  function Clip(s: string, n: nat): (r: string)
    ensures |r| == Min(n, |s|)
    ensures r == s[..|r|]
  {
    if |s| <= n then s else s[..n]
  }

  /** `s.endswith(p)` */
  predicate EndsWith(s: string, p: string) {
    |p| <= |s| && s[|s| - |p|..] == p
  }

  /** One entry, `"{ticker} {filing_year} {filing_type} p.{page}: {text[:400]}"`.
      The fields are read left to right, so the error names the first of
      ticker, year, type and text that the hit lacks; the page is never an
      error. A rendered entry starts with the ticker and ends with the
      clipped text. */
  function RenderHit(c: Chunk): (r: Result<string, AssemblyError>)
    ensures r.Success? <==> c.ticker.Some? && c.filingYear.Some? && c.filingType.Some? && c.text.Some?
    ensures c.ticker.None? ==> r == Failure(MissingField(TickerKey))
    ensures c.ticker.Some? && c.filingYear.None? ==> r == Failure(MissingField(FilingYearKey))
    ensures c.ticker.Some? && c.filingYear.Some? && c.filingType.None? ==> r == Failure(MissingField(FilingTypeKey))
    ensures c.ticker.Some? && c.filingYear.Some? && c.filingType.Some? && c.text.None? ==> r == Failure(MissingField(TextKey))
    ensures r.Success? ==> StartsWith(r.value, c.ticker.value + " ")
    ensures r.Success? ==> EndsWith(r.value, ": " + Clip(c.text.value, ClipLength))
    ensures r.Success? ==> r.value == c.ticker.value + " " + IntToString(c.filingYear.value) + " "
                                      + c.filingType.value + " p." + IntToString(c.page.GetOr(DefaultPage))
                                      + ": " + Clip(c.text.value, ClipLength)
  {
    if c.ticker.None? then Failure(MissingField(TickerKey))
    else if c.filingYear.None? then Failure(MissingField(FilingYearKey))
    else if c.filingType.None? then Failure(MissingField(FilingTypeKey))
    else if c.text.None? then Failure(MissingField(TextKey))
    else
      var head := c.ticker.value + " " + IntToString(c.filingYear.value) + " " + c.filingType.value
                  + " p." + IntToString(c.page.GetOr(DefaultPage)) + ": ";
      var tail := Clip(c.text.value, ClipLength);
      assert (head + tail)[..|c.ticker.value + " "|] == c.ticker.value + " ";
      assert (head + tail)[|head + tail| - |": " + tail|..] == ": " + tail;
      Success(head + tail)
  }

  /** An entry can be read back: provided tickers and filing types hold no
      blank, two hits render to the same entry only when they agree on the
      ticker, year, filing type, shown page and clipped text. So the entry
      holds exactly these five fields, in this order and with these
      separators. */
  lemma RenderHitReadBack(c1: Chunk, c2: Chunk)
    requires RenderHit(c1).Success? && RenderHit(c1) == RenderHit(c2)
    requires Lacks(c1.ticker.value, ' ') && Lacks(c2.ticker.value, ' ')
    requires Lacks(c1.filingType.value, ' ') && Lacks(c2.filingType.value, ' ')
    ensures c1.ticker == c2.ticker && c1.filingYear == c2.filingYear && c1.filingType == c2.filingType
    ensures c1.page.GetOr(DefaultPage) == c2.page.GetOr(DefaultPage)
    ensures Clip(c1.text.value, ClipLength) == Clip(c2.text.value, ClipLength)
  {
    var y1, y2 := IntToString(c1.filingYear.value), IntToString(c2.filingYear.value);
    var p1, p2 := IntToString(c1.page.GetOr(DefaultPage)), IntToString(c2.page.GetOr(DefaultPage));
    EntryParts(c1.ticker.value, y1, c1.filingType.value, p1, Clip(c1.text.value, ClipLength),
               c2.ticker.value, y2, c2.filingType.value, p2, Clip(c2.text.value, ClipLength));
    IntToStringInjective(c1.filingYear.value, c2.filingYear.value);
    IntToStringInjective(c1.page.GetOr(DefaultPage), c2.page.GetOr(DefaultPage));
  }

  /** The layout of an entry, field by field: the separators after the ticker
      and the year are blanks, the one after the page is a colon. */
  lemma EntryParts(t1: string, y1: string, f1: string, p1: string, x1: string,
                   t2: string, y2: string, f2: string, p2: string, x2: string)
    requires Lacks(t1, ' ') && Lacks(t2, ' ') && Lacks(f1, ' ') && Lacks(f2, ' ')
    requires forall i :: 0 <= i < |y1| ==> IsDigit(y1[i]) || y1[i] == '-'
    requires forall i :: 0 <= i < |y2| ==> IsDigit(y2[i]) || y2[i] == '-'
    requires forall i :: 0 <= i < |p1| ==> IsDigit(p1[i]) || p1[i] == '-'
    requires forall i :: 0 <= i < |p2| ==> IsDigit(p2[i]) || p2[i] == '-'
    requires t1 + " " + y1 + " " + f1 + " p." + p1 + ": " + x1
          == t2 + " " + y2 + " " + f2 + " p." + p2 + ": " + x2
    ensures t1 == t2 && y1 == y2 && f1 == f2 && p1 == p2 && x1 == x2
  {
    var r1 := p1 + [':'] + (" " + x1);
    var r2 := p2 + [':'] + (" " + x2);
    assert t1 + " " + y1 + " " + f1 + " p." + p1 + ": " + x1
        == t1 + [' '] + (y1 + [' '] + (f1 + [' '] + ("p." + r1)));
    assert t2 + " " + y2 + " " + f2 + " p." + p2 + ": " + x2
        == t2 + [' '] + (y2 + [' '] + (f2 + [' '] + ("p." + r2)));
    SplitAt(t1, y1 + [' '] + (f1 + [' '] + ("p." + r1)), t2, y2 + [' '] + (f2 + [' '] + ("p." + r2)), ' ');
    SplitAt(y1, f1 + [' '] + ("p." + r1), y2, f2 + [' '] + ("p." + r2), ' ');
    SplitAt(f1, "p." + r1, f2, "p." + r2, ' ');
    assert r1 == ("p." + r1)[2..] == ("p." + r2)[2..] == r2;
    SplitAt(p1, " " + x1, p2, " " + x2, ':');
    assert x1 == (" " + x1)[1..];
    assert x2 == (" " + x2)[1..];
  }

  /** A hit without a page renders exactly as one on page 1. */
  lemma RenderDefaultPage(c: Chunk)
    requires c.page.None?
    ensures RenderHit(c) == RenderHit(c.(page := Some(DefaultPage)))
  {
  }

  /** Text past the first 400 characters never reaches the prompt: two hits
      whose texts agree on their first 400 characters render alike. */
  lemma RenderIgnoresTextTail(c: Chunk, t1: string, t2: string)
    requires Clip(t1, ClipLength) == Clip(t2, ClipLength)
    ensures RenderHit(c.(text := Some(t1))) == RenderHit(c.(text := Some(t2)))
  {
  }

  /** The document id and the item label are not shown. */
  lemma RenderIgnoresIdAndLabel(c: Chunk, newId: Option<string>, newLabel: Option<string>)
    ensures RenderHit(c.(docId := newId, itemLabel := newLabel)) == RenderHit(c)
  {
  }

  /** The entries of all hits, in order, or the error of the first hit that
      cannot be rendered. Stated for any renderer; the context uses
      `RenderHit`. */
  function RenderAll(hits: seq<Chunk>, render: Chunk -> Result<string, AssemblyError>)
    : (r: Result<seq<string>, AssemblyError>)
    ensures r.Success? <==> forall i :: 0 <= i < |hits| ==> render(hits[i]).Success?
    ensures r.Success? ==> |r.value| == |hits|
    ensures r.Success? ==> forall i :: 0 <= i < |hits| ==> render(hits[i]) == Success(r.value[i])
    ensures r.Failure? ==> exists i :: 0 <= i < |hits| && render(hits[i]) == Failure(r.error)
                                       && forall j :: 0 <= j < i ==> render(hits[j]).Success?
    decreases |hits|
  {
    if |hits| == 0 then Success([])
    else
      match render(hits[0])
      case Failure(e) => Failure(e)
      case Success(entry) =>
        var rest := RenderAll(hits[1..], render);
        assert forall i :: 1 <= i < |hits| ==> hits[1..][i - 1] == hits[i];
        if rest.Failure? then
          var i :| 0 <= i < |hits| - 1 && render(hits[1..][i]) == Failure(rest.error)
                   && forall j :: 0 <= j < i ==> render(hits[1..][j]).Success?;
          assert render(hits[i + 1]) == Failure(rest.error);
          Failure(rest.error)
        else
          Success([entry] + rest.value)
  }

  /** The entries are determined by the renderer: a list holding the entry of
      every hit, in order, is the result. */
  lemma RenderAllIs(hits: seq<Chunk>, render: Chunk -> Result<string, AssemblyError>, v: seq<string>)
    requires |v| == |hits| && forall i :: 0 <= i < |hits| ==> render(hits[i]) == Success(v[i])
    ensures RenderAll(hits, render) == Success(v)
  {
    assert forall i :: 0 <= i < |hits| ==> render(hits[i]).Success?;
    var w := RenderAll(hits, render).value;
    assert |w| == |v|;
    forall i | 0 <= i < |hits|
      ensures w[i] == v[i]
    {
      assert render(hits[i]) == Success(w[i]);
    }
    assert w == v;
  }

  lemma RenderAllAppend(a: seq<Chunk>, b: seq<Chunk>, render: Chunk -> Result<string, AssemblyError>)
    requires RenderAll(a, render).Success? && RenderAll(b, render).Success?
    ensures RenderAll(a + b, render) == Success(RenderAll(a, render).value + RenderAll(b, render).value)
  {
    var v := RenderAll(a, render).value + RenderAll(b, render).value;
    forall i | 0 <= i < |a + b|
      ensures render((a + b)[i]) == Success(v[i])
    {
      if i < |a| {
        assert (a + b)[i] == a[i];
      } else {
        assert (a + b)[i] == b[i - |a|];
      }
    }
    RenderAllIs(a + b, render, v);
  }

  /** `"\n\n".join(...)` over the entries: the context block, or the error of
      the first hit that cannot be rendered. */
  function AssembleContext(hits: seq<Chunk>): (r: Result<string, AssemblyError>)
    ensures r.Success? <==> forall i :: 0 <= i < |hits| ==> RenderHit(hits[i]).Success?
    ensures |hits| == 0 ==> r == Success("")
    ensures |hits| == 1 ==> r == RenderHit(hits[0])
  {
    match RenderAll(hits, RenderHit)
    case Failure(e) => Failure(e)
    case Success(entries) => Success(Join(EntrySeparator, entries))
  }

  /** The context of a concatenation is the two contexts separated by a blank
      line: entries keep the order of the hits. */
  lemma ContextAppend(a: seq<Chunk>, b: seq<Chunk>)
    requires |a| > 0 && |b| > 0
    requires AssembleContext(a).Success? && AssembleContext(b).Success?
    ensures AssembleContext(a + b)
            == Success(AssembleContext(a).value + EntrySeparator + AssembleContext(b).value)
  {
    RenderAllAppend(a, b, RenderHit);
    JoinConcat(EntrySeparator, RenderAll(a, RenderHit).value, RenderAll(b, RenderHit).value);
  }

  /** `f"User question: {question}\n\nContext:\n{ctx}"` */
  function UserPrompt(question: string, ctx: string): (p: string)
    ensures StartsWith(p, QuestionLabel + question)
    ensures EndsWith(p, ContextLabel + ctx)
    ensures |p| == |QuestionLabel| + |question| + |ContextLabel| + |ctx|
  {
    var p := QuestionLabel + question + ContextLabel + ctx;
    assert p[..|QuestionLabel + question|] == QuestionLabel + question;
    assert p[|p| - |ContextLabel + ctx|..] == ContextLabel + ctx;
    p
  }

  /** The question and the context can be read back from a prompt once the
      length of the question is known: no two different pairs with questions
      of the same length give the same prompt. */
  lemma UserPromptInjective(q1: string, c1: string, q2: string, c2: string)
    requires |q1| == |q2| && UserPrompt(q1, c1) == UserPrompt(q2, c2)
    ensures q1 == q2 && c1 == c2
  {
    var p := UserPrompt(q1, c1);
    assert q1 == p[|QuestionLabel|..|QuestionLabel| + |q1|];
    assert q2 == p[|QuestionLabel|..|QuestionLabel| + |q2|];
    assert c1 == p[|p| - |c1|..];
    assert c2 == p[|p| - |c2|..];
  }
}

=== FILE: counting.dfy ===
/** Counting the elements of a list that satisfy a test, as the source does with
    `sum(1 for x in xs if p(x))` and with a counter bumped inside a loop. */
module Counting {

  /** The number of elements of `xs` satisfying `p`, repeats included. */
  function Count<T>(xs: seq<T>, p: T -> bool): (n: nat)
    ensures n <= |xs|
    decreases |xs|
  {
    if |xs| == 0 then 0
    else Count(xs[..|xs| - 1], p) + (if p(xs[|xs| - 1]) then 1 else 0)
  }

  /** The positions of `xs` whose element satisfies `p`. */
  ghost function Positions<T>(xs: seq<T>, p: T -> bool): set<int> {
    set i | 0 <= i < |xs| && p(xs[i])
  }

  /** The count is the number of satisfying positions: every position is
      counted once, and repeated elements are counted once per position. */
  lemma {:induction false} CountIsPositions<T>(xs: seq<T>, p: T -> bool)
    ensures Count(xs, p) == |Positions(xs, p)|
    decreases |xs|
  {
    if |xs| == 0 {
      assert Positions(xs, p) == {};
    } else {
      var n := |xs| - 1;
      CountIsPositions(xs[..n], p);
      if p(xs[n]) {
        assert Positions(xs, p) == Positions(xs[..n], p) + {n};
      } else {
        assert Positions(xs, p) == Positions(xs[..n], p);
      }
    }
  }

  /** The count reaches the length exactly when every element satisfies `p`. */
  lemma {:induction false} CountAll<T>(xs: seq<T>, p: T -> bool)
    ensures Count(xs, p) == |xs| <==> forall i :: 0 <= i < |xs| ==> p(xs[i])
    decreases |xs|
  {
    if |xs| > 0 {
      var n := |xs| - 1;
      CountAll(xs[..n], p);
      if forall i :: 0 <= i < |xs| ==> p(xs[i]) {
        assert forall i :: 0 <= i < n ==> p(xs[..n][i]);
      }
    }
  }

  /** The count is zero exactly when no element satisfies `p`. */
  lemma {:induction false} CountNone<T>(xs: seq<T>, p: T -> bool)
    ensures Count(xs, p) == 0 <==> forall i :: 0 <= i < |xs| ==> !p(xs[i])
    decreases |xs|
  {
    if |xs| > 0 {
      var n := |xs| - 1;
      CountNone(xs[..n], p);
      if forall i :: 0 <= i < |xs| ==> !p(xs[i]) {
        assert forall i :: 0 <= i < n ==> !p(xs[..n][i]);
      }
    }
  }

  /** Counting distributes over concatenation. */
  lemma {:induction false} CountAppend<T>(a: seq<T>, b: seq<T>, p: T -> bool)
    ensures Count(a + b, p) == Count(a, p) + Count(b, p)
    decreases |b|
  {
    if |b| == 0 {
      assert a + b == a;
    } else {
      var n := |b| - 1;
      assert (a + b)[..|a + b| - 1] == a + b[..n];
      CountAppend(a, b[..n], p);
    }
  }

  /** Cutting `xs` at `e` leaves at most its matches in the tail, and one
      fewer when the head holds the match at `q`. */
  lemma CountSuffix<T>(xs: seq<T>, e: int, q: int, p: T -> bool)
    requires 0 <= e <= |xs| && q < e
    requires 0 <= q ==> p(xs[q])
    ensures Count(xs, p) >= Count(xs[e..], p) + (if 0 <= q then 1 else 0)
  {
    if 0 <= q {
      assert xs[..e][q] == xs[q];
      CountNone(xs[..e], p);
    }
    CountAppend(xs[..e], xs[e..], p);
    assert xs[..e] + xs[e..] == xs;
  }
}

=== FILE: fingerprint.dfy ===
/** The dedup key `_fingerprint`: collapse whitespace, lower-case, keep the
    first 160 characters, hash. The md5 hash is modelled as the normalized
    prefix itself, so two texts share a fingerprint exactly when their
    normalized prefixes are equal (no collisions). */
module Fingerprints {

  import opened Strings
  import opened Splitting

  /** Only this many normalized characters take part in the fingerprint. */
  const PrefixLength := 160

  /** `" ".join(s.split())`: the whitespace-separated words joined by single
      spaces. */
  function Collapse(s: string): string {
    Join(" ", Runs(s, IsNonSpace))
  }

  /** `" ".join(s.split()).lower()[:160]` */
  function Fingerprint(s: string): (fp: string)
    ensures |fp| <= PrefixLength
    ensures |fp| == Min(PrefixLength, |Collapse(s)|)
    ensures forall i :: 0 <= i < |fp| ==> fp[i] == LowerChar(Collapse(s)[i])
  {
    var t := Lower(Collapse(s));
    if |t| <= PrefixLength then t else t[..PrefixLength]
  }

  /** Texts whose normalized forms differ within the first 160 characters,
      ignoring case, get different fingerprints: the dedup key never merges
      them. */
  lemma FingerprintDistinguishes(s: string, t: string, i: nat)
    requires i < PrefixLength && i < |Collapse(s)|
    requires i >= |Collapse(t)| || LowerChar(Collapse(s)[i]) != LowerChar(Collapse(t)[i])
    ensures Fingerprint(s) != Fingerprint(t)
  {
    if i < |Collapse(t)| {
      assert Fingerprint(s)[i] != Fingerprint(t)[i];
    } else {
      assert |Fingerprint(t)| <= i < |Fingerprint(s)|;
    }
  }

  // ---- case ----

  lemma {:induction false} JoinLower(xs: seq<string>)
    ensures Join(" ", MapEach(LowerChar, xs)) == Lower(Join(" ", xs))
    decreases |xs|
  {
    var ys := MapEach(LowerChar, xs);
    if |xs| == 1 {
      assert ys[0] == MapChars(LowerChar, xs[0]);
    } else if |xs| > 1 {
      assert ys[1..] == MapEach(LowerChar, xs[1..]);
      JoinLower(xs[1..]);
      LowerAppend(xs[0] + " ", Join(" ", xs[1..]));
      LowerAppend(xs[0], " ");
      assert Lower(" ") == " ";
    }
  }

  /** Collapsing whitespace and lower-casing commute. */
  lemma CollapseLower(s: string)
    ensures Collapse(Lower(s)) == Lower(Collapse(s))
  {
    assert Lower(s) == MapChars(LowerChar, s);
    forall c: char
      ensures IsNonSpace(LowerChar(c)) == IsNonSpace(c)
    {
    }
    RunsMap(s, IsNonSpace, LowerChar);
    JoinLower(Runs(s, IsNonSpace));
  }

  /** Texts that differ only in letter case share a fingerprint. */
  lemma FingerprintIgnoresCase(s: string, t: string)
    requires Lower(s) == Lower(t)
    ensures Fingerprint(s) == Fingerprint(t)
  {
    CollapseLower(s);
    CollapseLower(t);
  }

  // ---- whitespace ----

  /** Texts that differ only in the length or kind of one whitespace run share
      a fingerprint. */
  lemma FingerprintIgnoresSpaceRuns(a: string, w1: string, w2: string, b: string)
    requires |w1| > 0 && NoneOf(w1, IsNonSpace)
    requires |w2| > 0 && NoneOf(w2, IsNonSpace)
    ensures Fingerprint(a + w1 + b) == Fingerprint(a + w2 + b)
  {
    RunsSkipGap(a, w1, b, IsNonSpace);
    RunsSkipGap(a, w2, b, IsNonSpace);
  }

  /** Leading and trailing whitespace does not change the fingerprint. */
  lemma FingerprintIgnoresEdgeSpace(w1: string, s: string, w2: string)
    requires NoneOf(w1, IsNonSpace) && NoneOf(w2, IsNonSpace)
    ensures Fingerprint(w1 + s + w2) == Fingerprint(s)
  {
    RunsDropLeading(w1, s + w2, IsNonSpace);
    RunsDropTrailing(s, w2, IsNonSpace);
    assert w1 + s + w2 == w1 + (s + w2);
  }

  // ---- the 160-character cut ----

  /** A joined list starts with its first element. */
  lemma JoinStartsWithHead(sep: string, xs: seq<string>)
    requires |xs| > 0
    ensures StartsWith(Join(sep, xs), xs[0])
  {
    if |xs| > 1 {
      assert (xs[0] + sep + Join(sep, xs[1..]))[..|xs[0]|] == xs[0];
    }
  }

  /** A run that is still open stays the head of the runs, and only grows. */
  lemma {:induction false} RunsAccOpenHead(t: string, keep: char -> bool, cur: string)
    requires All(cur, keep) && |cur| > 0
    ensures |RunsAcc(t, keep, cur)| > 0 && StartsWith(RunsAcc(t, keep, cur)[0], cur)
    decreases |t|
  {
    if |t| > 0 && keep(t[0]) {
      RunsAccOpenHead(t[1..], keep, cur + [t[0]]);
      var h := RunsAcc(t[1..], keep, cur + [t[0]])[0];
      assert h[..|cur|] == h[..|cur| + 1][..|cur|];
    }
  }

  /** Prefixes are preserved by putting the same element in front. */
  lemma JoinConsPrefix(x: string, r1: seq<string>, r2: seq<string>)
    requires StartsWith(Join(" ", r2), Join(" ", r1))
    requires |r1| > 0 ==> |r2| > 0
    ensures StartsWith(Join(" ", [x] + r2), Join(" ", [x] + r1))
  {
    assert ([x] + r1)[1..] == r1;
    assert ([x] + r2)[1..] == r2;
    if |r1| > 0 {
      var j1, j2 := Join(" ", r1), Join(" ", r2);
      assert (x + " " + j2)[..|x + " " + j1|] == x + " " + j2[..|j1|];
    } else if |r2| > 0 {
      assert (x + " " + Join(" ", r2))[..|x|] == x;
    }
  }

  lemma {:induction false} JoinRunsAccPrefix(s: string, t: string, keep: char -> bool, cur: string)
    requires All(cur, keep)
    ensures StartsWith(Join(" ", RunsAcc(s + t, keep, cur)), Join(" ", RunsAcc(s, keep, cur)))
    decreases |s|
  {
    var st := s + t;
    if |s| == 0 {
      assert st == t;
      if |cur| > 0 {
        RunsAccOpenHead(t, keep, cur);
        var r := RunsAcc(t, keep, cur);
        JoinStartsWithHead(" ", r);
        assert Join(" ", r)[..|cur|] == Join(" ", r)[..|r[0]|][..|cur|];
      }
    } else {
      assert st[0] == s[0] && st[1..] == s[1..] + t;
      if keep(s[0]) {
        JoinRunsAccPrefix(s[1..], t, keep, cur + [s[0]]);
      } else {
        JoinRunsAccPrefix(s[1..], t, keep, "");
        var r1 := RunsAcc(s[1..], keep, "");
        var r2 := RunsAcc(s[1..] + t, keep, "");
        if |r1| > 0 {
          JoinStartsWithHead(" ", r1);
          assert |Join(" ", r2)| >= |Join(" ", r1)| >= |r1[0]| > 0;
        }
        assert RunsAcc(s, keep, cur) == Flush(cur) + r1;
        assert RunsAcc(st, keep, cur) == Flush(cur) + r2;
        if |cur| > 0 {
          JoinConsPrefix(cur, r1, r2);
        } else {
          assert Flush(cur) + r1 == r1 && Flush(cur) + r2 == r2;
        }
      }
    }
  }

  /** Appending text only extends the normalized text: `" ".join(s.split())`
      of a text is a prefix of that of any longer text. */
  lemma CollapsePrefix(a: string, b: string)
    ensures StartsWith(Collapse(a + b), Collapse(a))
  {
    JoinRunsAccPrefix(a, b, IsNonSpace, "");
  }

  /** Once the normalized text reaches 160 characters, nothing appended to it
      changes the fingerprint: texts that diverge only after normalized
      position 160 are duplicates. */
  lemma FingerprintIgnoresTail(a: string, b: string)
    requires |Collapse(a)| >= PrefixLength
    ensures Fingerprint(a + b) == Fingerprint(a)
  {
    CollapsePrefix(a, b);
    var ca, cab := Collapse(a), Collapse(a + b);
    forall i | 0 <= i < PrefixLength
      ensures Lower(cab)[i] == Lower(ca)[i]
    {
      assert cab[i] == cab[..|ca|][i];
    }
    assert Lower(cab)[..PrefixLength] == Lower(ca)[..PrefixLength];
  }
}

=== FILE: metrics.dfy ===
/** The answer-quality measures of the evaluation: keyword coverage, the
    word-set Jaccard similarity of two answers, the hash-bucket sample of
    question ids that are asked twice, and the key under which a result is
    aggregated per filing. Ratios are exact rationals; the source computes
    them in floating point. */
module Metrics {

  import opened Wrappers
  import opened Strings
  import opened Splitting
  import opened Counting

  // ---- keyword coverage ----

  /** The keyword, lower-cased, occurs in the lower-cased answer. */
  ghost predicate Covers(answer: string, kw: string) {
    Occurs(Lower(kw), Lower(answer))
  }

  /** The test applied to each keyword: `k.lower() in a`. */
  function Found(answer: string): string -> bool {
    k => Contains(Lower(answer), Lower(k))
  }

  /** The positions of the keywords that the answer covers. */
  ghost function CoveredAt(answer: string, keywords: seq<string>): set<int> {
    set i | 0 <= i < |keywords| && Covers(answer, keywords[i])
  }

  /** `keyword_coverage`: the share of keywords that occur in the answer,
      ignoring case; 1 when there are no keywords. The share is 1 exactly
      when every keyword occurs and 0 exactly when none does. */
  function KeywordCoverage(answer: string, keywords: seq<string>): (r: real)
    ensures 0.0 <= r <= 1.0
    ensures |keywords| == 0 ==> r == 1.0
    ensures |keywords| > 0 ==> r == |CoveredAt(answer, keywords)| as real / |keywords| as real
    ensures r == 1.0 <==> forall i :: 0 <= i < |keywords| ==> Covers(answer, keywords[i])
    ensures r == 0.0 <==> |keywords| > 0 && forall i :: 0 <= i < |keywords| ==> !Covers(answer, keywords[i])
  {
    if |keywords| == 0 then 1.0
    else
      var hits := Count(keywords, Found(answer));
      CoverageCount(answer, keywords);
      CoveredCount(answer, keywords);
      Ratio(hits, if |keywords| > 1 then |keywords| else 1);
      hits as real / (if |keywords| > 1 then |keywords| else 1) as real
  }

  /** All keywords are found exactly when every one is covered, none exactly
      when none is. */
  lemma CoverageCount(answer: string, keywords: seq<string>)
    ensures Count(keywords, Found(answer)) == |keywords|
            <==> forall i :: 0 <= i < |keywords| ==> Covers(answer, keywords[i])
    ensures Count(keywords, Found(answer)) == 0
            <==> forall i :: 0 <= i < |keywords| ==> !Covers(answer, keywords[i])
  {
    CountAll(keywords, Found(answer));
    CountNone(keywords, Found(answer));
    assert forall i :: 0 <= i < |keywords| ==> (Found(answer)(keywords[i]) <==> Covers(answer, keywords[i]));
  }

  /** The number of keywords found is the number of covered positions. */
  lemma CoveredCount(answer: string, keywords: seq<string>)
    ensures Count(keywords, Found(answer)) == |CoveredAt(answer, keywords)|
  {
    CountIsPositions(keywords, Found(answer));
    assert Positions(keywords, Found(answer)) == CoveredAt(answer, keywords);
  }

  /** A count over a positive total is a share in [0, 1], which is 1 exactly
      for the total and 0 exactly for none. */
  lemma Ratio(x: nat, y: nat)
    requires 0 < y && x <= y
    ensures 0.0 <= x as real / y as real <= 1.0
    ensures x as real / y as real == 1.0 <==> x == y
    ensures x as real / y as real == 0.0 <==> x == 0
  {
    var r := x as real / y as real;
    assert r * y as real == x as real;
  }

  /** The coverage does not depend on the case of the answer. */
  lemma CoverageIgnoresCase(answer: string, keywords: seq<string>)
    ensures KeywordCoverage(Upper(answer), keywords) == KeywordCoverage(answer, keywords)
  {
    LowerOfUpper(answer);
  }

  lemma LowerOfUpper(s: string)
    ensures Lower(Upper(s)) == Lower(s)
  {
  }

  // ---- Jaccard similarity of word sets ----

  /** `set(w for w in re.findall(r"\w+", s.lower()) if len(w) > 2)` */
  function WordSet(s: string): (ws: set<string>)
    ensures forall w :: w in ws ==> |w| > 2 && forall i :: 0 <= i < |w| ==> IsWordChar(w[i])
    ensures forall w :: w in ws <==> w in Runs(Lower(s), IsWordChar) && |w| > 2
  {
    set w | w in Runs(Lower(s), IsWordChar) && |w| > 2
  }

  /** A whole word of more than two word characters is the one word of its
      text, lower-cased: words are the maximal `\w` runs. */
  lemma WordSetOfWord(w: string)
    requires |w| > 2 && All(w, IsWordChar)
    ensures WordSet(w) == {Lower(w)}
  {
    assert All(Lower(w), IsWordChar);
    RunsOfAll(Lower(w), IsWordChar);
  }

  /** A character outside `\w` separates the words of the two sides. */
  lemma WordSetSplit(a: string, c: char, b: string)
    requires !IsWordChar(c)
    ensures WordSet(a + [c] + b) == WordSet(a) + WordSet(b)
  {
    assert Lower(a + [c] + b) == Lower(a) + [LowerChar(c)] + Lower(b);
    RunsSeparator(Lower(a), LowerChar(c), Lower(b), IsWordChar);
    var ra, rb := Runs(Lower(a), IsWordChar), Runs(Lower(b), IsWordChar);
    assert forall w :: w in ra + rb <==> w in ra || w in rb;
  }

  /** `jaccard`: shared words over all words; 0 when either answer has no
      word longer than two characters. */
  function Jaccard(a: string, b: string): (r: real)
    ensures WordSet(a) == {} || WordSet(b) == {} ==> r == 0.0
    ensures 0.0 <= r <= 1.0
    ensures r == 1.0 <==> WordSet(a) == WordSet(b) && WordSet(a) != {}
  {
    var wa := WordSet(a);
    var wb := WordSet(b);
    if wa == {} || wb == {} then 0.0
    else
      SetRatio(wa, wb);
      |wa * wb| as real / |wa + wb| as real
  }

  /** For non-empty sets the Jaccard ratio is in [0, 1] and is 1 exactly when
      the sets are equal. */
  lemma SetRatio<T>(x: set<T>, y: set<T>)
    requires x != {} && y != {}
    ensures 0 < |x + y|
    ensures 0.0 <= |x * y| as real / |x + y| as real <= 1.0
    ensures |x * y| as real / |x + y| as real == 1.0 <==> x == y
  {
    SubsetSize(x * y, x + y);
    SubsetSize(x, x + y);
    Ratio(|x * y|, |x + y|);
    if x == y {
      assert x * y == x + y;
    }
    if |x * y| == |x + y| {
      SubsetSizeEqual(x * y, x + y);
      assert x == y by {
        assert x <= x + y == x * y <= y;
        assert y <= x + y == x * y <= x;
      }
    }
  }

  /** A subset is no larger than its superset. */
  lemma {:induction false} SubsetSize<T>(x: set<T>, y: set<T>)
    requires x <= y
    ensures |x| <= |y|
    decreases |y|
  {
    if y != {} {
      var e :| e in y;
      SubsetSize(x - {e}, y - {e});
    }
  }

  /** A subset as large as its superset is the superset. */
  lemma SubsetSizeEqual<T>(x: set<T>, y: set<T>)
    requires x <= y && |x| == |y|
    ensures x == y
  {
    if x != y {
      var e :| e in y && e !in x;
      SubsetSize(x, y - {e});
    }
  }

  /** The similarity of two answers does not depend on their order. */
  lemma JaccardSymmetric(a: string, b: string)
    ensures Jaccard(a, b) == Jaccard(b, a)
  {
    assert WordSet(a) * WordSet(b) == WordSet(b) * WordSet(a);
    assert WordSet(a) + WordSet(b) == WordSet(b) + WordSet(a);
  }

  /** Case never matters. */
  lemma JaccardIgnoresCase(a: string, b: string)
    ensures Jaccard(Upper(a), b) == Jaccard(a, b)
  {
    LowerOfUpper(a);
  }

  // ---- the repeat sample ----

  /** Python's `round` on a real: to the nearest integer, halves to the even
      neighbour. */
  function RoundHalfEven(x: real): (n: int)
    ensures -0.5 <= n as real - x <= 0.5
    ensures n as real - x == 0.5 || x - n as real == 0.5 ==> n % 2 == 0
  {
    var f := x.Floor;
    var d := x - f as real;
    if d < 0.5 then f
    else if d > 0.5 then f + 1
    else if f % 2 == 0 then f
    else f + 1
  }

  lemma RoundMonotone(x: real, y: real)
    requires x <= y
    ensures RoundHalfEven(x) <= RoundHalfEven(y)
  {
  }

  /** The sampling threshold, `int(round(frac * 100))`. */
  function TargetPercent(frac: real): (t: int)
    ensures -0.5 <= t as real - frac * 100.0 <= 0.5
    ensures t as real - frac * 100.0 == 0.5 || frac * 100.0 - t as real == 0.5 ==> t % 2 == 0
  {
    RoundHalfEven(frac * 100.0)
  }

  /** The bucket of an id: the first four hex digits of its MD5 digest, as a
      number, modulo 100. `digest16` stands for the number. */
  function Bucket(id: string, digest16: string -> nat): (b: nat)
    ensures b < 100
  {
    digest16(id) % 100
  }

  /** `deterministic_sample`: the ids whose bucket is below the threshold,
      none at all for a non-positive fraction. */
  function DeterministicSample(ids: seq<string>, frac: real, digest16: string -> nat): (picks: set<string>)
    ensures frac <= 0.0 ==> picks == {}
    ensures forall i :: i in picks ==> i in ids
    ensures forall i :: i in picks ==> Bucket(i, digest16) < TargetPercent(frac)
    ensures frac > 0.0 ==> forall i :: i in ids && Bucket(i, digest16) < TargetPercent(frac) ==> i in picks
  {
    if frac <= 0.0 then {}
    else set i | i in ids && Bucket(i, digest16) < TargetPercent(frac)
  }

  /** A larger fraction samples a superset of ids. */
  lemma SampleMonotone(ids: seq<string>, f1: real, f2: real, digest16: string -> nat)
    requires f1 <= f2
    ensures DeterministicSample(ids, f1, digest16) <= DeterministicSample(ids, f2, digest16)
  {
    RoundMonotone(f1 * 100.0, f2 * 100.0);
  }

  /** Whether an id is picked depends on that id alone: sampling a
      concatenation of id lists samples each list. */
  lemma SampleOfConcat(a: seq<string>, b: seq<string>, frac: real, digest16: string -> nat)
    ensures DeterministicSample(a + b, frac, digest16)
            == DeterministicSample(a, frac, digest16) + DeterministicSample(b, frac, digest16)
  {
    if frac > 0.0 {
      forall i | i in a + b
        ensures i in a || i in b
      {
        var k :| 0 <= k < |a + b| && (a + b)[k] == i;
        if k >= |a| {
          assert b[k - |a|] == i;
        }
      }
    }
  }

  /** A fraction that rounds to 100 per cent or more picks every id. */
  lemma SampleAll(ids: seq<string>, frac: real, digest16: string -> nat)
    requires frac > 0.0 && TargetPercent(frac) >= 100
    ensures DeterministicSample(ids, frac, digest16) == set i | i in ids
  {
  }

  // ---- the per-filing aggregation key ----

  /** Python truthiness of the optional row fields: a missing or empty
      string and a missing or zero year are false. */
  predicate TruthyText(v: Option<string>) { v.Some? && v.value != "" }
  predicate TruthyYear(v: Option<int>) { v.Some? && v.value != 0 }

  /** `f"{ticker} {fyear} {ftype}"` when all three fields are set, the ticker
      alone when only it is set, no key otherwise. */
  function AggregationKey(ticker: Option<string>, ftype: Option<string>, fyear: Option<int>)
    : (key: Option<string>)
    ensures key.None? <==> !TruthyText(ticker)
    ensures key.Some? ==> key.value != "" && StartsWith(key.value, ticker.value)
    ensures key.Some? && !(TruthyText(ftype) && TruthyYear(fyear)) ==> key.value == ticker.value
    ensures TruthyText(ticker) && TruthyText(ftype) && TruthyYear(fyear)
            ==> key == Some(ticker.value + " " + IntToString(fyear.value) + " " + ftype.value)
  {
    if TruthyText(ticker) && TruthyText(ftype) && TruthyYear(fyear) then
      var k := ticker.value + " " + IntToString(fyear.value) + " " + ftype.value;
      assert k[..|ticker.value|] == ticker.value;
      Some(k)
    else if TruthyText(ticker) then Some(ticker.value)
    else None
  }

  predicate NoBlank(s: string) {
    Lacks(s, ' ')
  }

  /** A full key holds a blank; a bare key of a blank-free ticker does
      not. */
  lemma KeyHasBlank(t: Option<string>, f: Option<string>, y: Option<int>)
    requires t.Some? ==> NoBlank(t.value)
    requires AggregationKey(t, f, y).Some?
    ensures NoBlank(AggregationKey(t, f, y).value) <==> !(TruthyText(f) && TruthyYear(y))
  {
    if TruthyText(f) && TruthyYear(y) {
      BlankInKey(t.value, IntToString(y.value) + " " + f.value);
      assert t.value + " " + IntToString(y.value) + " " + f.value
             == t.value + " " + (IntToString(y.value) + " " + f.value);
    }
  }

  /** Two rows share a key only when they share what the key is made of,
      provided tickers hold no blank: the same ticker, and either both have
      the same year and filing type or neither has both. */
  lemma AggregationKeyInjective(t1: Option<string>, f1: Option<string>, y1: Option<int>,
                                t2: Option<string>, f2: Option<string>, y2: Option<int>)
    requires t1.Some? ==> NoBlank(t1.value)
    requires t2.Some? ==> NoBlank(t2.value)
    requires AggregationKey(t1, f1, y1) == AggregationKey(t2, f2, y2) != None
    ensures t1 == t2
    ensures (TruthyText(f1) && TruthyYear(y1)) <==> (TruthyText(f2) && TruthyYear(y2))
    ensures TruthyText(f1) && TruthyYear(y1) ==> f1 == f2 && y1 == y2
  {
    KeyHasBlank(t1, f1, y1);
    KeyHasBlank(t2, f2, y2);
    if TruthyText(f1) && TruthyYear(y1) {
      var s1 := IntToString(y1.value);
      var s2 := IntToString(y2.value);
      DigitsHaveNoBlank(y1.value);
      DigitsHaveNoBlank(y2.value);
      FullKeyParts(t1.value, s1, f1.value, t2.value, s2, f2.value);
      IntToStringInjective(y1.value, y2.value);
    }
  }

  /** The three parts of a full key can be read back from it. */
  lemma FullKeyParts(t1: string, s1: string, f1: string, t2: string, s2: string, f2: string)
    requires NoBlank(t1) && NoBlank(t2) && NoBlank(s1) && NoBlank(s2)
    requires t1 + " " + s1 + " " + f1 == t2 + " " + s2 + " " + f2
    ensures t1 == t2 && s1 == s2 && f1 == f2
  {
    assert t1 + " " + s1 + " " + f1 == t1 + " " + (s1 + " " + f1);
    assert t2 + " " + s2 + " " + f2 == t2 + " " + (s2 + " " + f2);
    SplitAt(t1, s1 + " " + f1, t2, s2 + " " + f2, ' ');
    SplitAt(s1, f1, s2, f2, ' ');
  }

  lemma DigitsHaveNoBlank(n: int)
    ensures NoBlank(IntToString(n))
  {
  }

  /** A full key has a blank. */
  lemma BlankInKey(t: string, rest: string)
    ensures !NoBlank(t + " " + rest)
  {
    assert (t + " " + rest)[|t|] == ' ';
  }
}

=== FILE: query.dfy ===
/** Query inference: two small closed-set keyword classifiers over the
    question text, one for the ticker filter and one for the section hint
    that biases scoring. */
module QueryInference {

  import opened Wrappers
  import opened Strings

  /** The only ticker the classifier knows. */
  const AppleTicker := "AAPL"

  /** Section hint for risk and supply-chain questions (Risk Factors). */
  const RiskHint := "Item 1A"

  /** Section hint for cash and liquidity questions (MD&A). */
  const CashHint := "Item 7"

  const RiskTerms: seq<string> := ["risk", "supply-chain", "supply chain"]
  const CashTerms: seq<string> := ["cash", "liquidity", "balance sheet", "cash flow"]

  // ---- ticker ----

  /** The lower-case word `w` occurs at `i` of `q` as `\bW\b` matches it under
      `re.I`: the characters agree up to case and neither neighbour is a word
      character. */
  ghost predicate WholeWordAt(q: string, w: string, i: int) {
    && 0 <= i && i + |w| <= |q|
    && Lower(q[i..i + |w|]) == w
    && (i == 0 || !IsWordChar(q[i - 1]))
    && (i + |w| == |q| || !IsWordChar(q[i + |w|]))
  }

  ghost predicate MentionsWord(q: string, w: string) {
    exists i :: WholeWordAt(q, w, i)
  }

  /** The question names Apple by symbol or by name. */
  ghost predicate MentionsApple(q: string) {
    MentionsWord(q, "aapl") || MentionsWord(q, "apple")
  }

  /** Leftmost search for a whole-word match at or after `i`. */
  function FindWordFrom(q: string, w: string, i: nat): (b: bool)
    ensures b <==> exists j :: i <= j && WholeWordAt(q, w, j)
    decreases |q| - i
  {
    if i + |w| > |q| then false
    else if && Lower(q[i..i + |w|]) == w
            && (i == 0 || !IsWordChar(q[i - 1]))
            && (i + |w| == |q| || !IsWordChar(q[i + |w|]))
    then
      assert WholeWordAt(q, w, i);
      true
    else FindWordFrom(q, w, i + 1)
  }

  /** `_guess_ticker`: `"AAPL"` exactly when the question contains the whole
      word AAPL or Apple in any case, and no ticker otherwise. */
  function GuessTicker(q: string): (r: Option<string>)
    ensures r == Some(AppleTicker) <==> MentionsApple(q)
    ensures r == None <==> !MentionsApple(q)
  {
    if FindWordFrom(q, "aapl", 0) || FindWordFrom(q, "apple", 0) then Some(AppleTicker)
    else None
  }

  // ---- section hint ----

  /** Some term of the list occurs in `ql`. */
  ghost predicate MentionsAny(terms: seq<string>, ql: string) {
    exists i :: 0 <= i < |terms| && Occurs(terms[i], ql)
  }

  /** `_section_hint`: risk and supply-chain vocabulary is looked for first and
      wins; cash and liquidity vocabulary gives the MD&A hint only when no risk
      term is present; anything else gives no hint. Matching is on the
      lower-cased question. */
  function SectionHint(q: string): (r: Option<string>)
    ensures r == Some(RiskHint) <==> MentionsAny(RiskTerms, Lower(q))
    ensures r == Some(CashHint) <==>
              !MentionsAny(RiskTerms, Lower(q)) && MentionsAny(CashTerms, Lower(q))
    ensures r == None <==>
              !MentionsAny(RiskTerms, Lower(q)) && !MentionsAny(CashTerms, Lower(q))
  {
    var ql := Lower(q);
    assert RiskTerms[0] == "risk" && RiskTerms[1] == "supply-chain" && RiskTerms[2] == "supply chain";
    assert CashTerms[0] == "cash" && CashTerms[1] == "liquidity";
    assert CashTerms[2] == "balance sheet" && CashTerms[3] == "cash flow";
    if Contains(ql, "risk") || Contains(ql, "supply-chain") || Contains(ql, "supply chain") then
      Some(RiskHint)
    else if Contains(ql, "cash") || Contains(ql, "liquidity") || Contains(ql, "balance sheet")
            || Contains(ql, "cash flow") then
      Some(CashHint)
    else None
  }

  /** A question mentioning both risk and cash gets the Risk Factors hint. */
  lemma RiskWinsOverCash(q: string)
    requires Occurs("risk", Lower(q)) && Occurs("cash", Lower(q))
    ensures SectionHint(q) == Some(RiskHint)
  {
    assert RiskTerms[0] == "risk";
  }

  /** Any text containing "cash flow" already contains "cash". */
  lemma CashFlowImpliesCash(s: string)
    requires Occurs("cash flow", s)
    ensures Occurs("cash", s)
  {
    var i :| OccursAt("cash flow", s, i);
    assert s[i..i + 4] == s[i..i + 9][..4];
    assert OccursAt("cash", s, i);
  }

  /** The "cash flow" test never decides the hint: dropping it from the cash
      terms gives the same hint for every question. */
  lemma SectionHintWithoutCashFlow(q: string)
    ensures SectionHint(q) == if MentionsAny(RiskTerms, Lower(q)) then Some(RiskHint)
                              else if MentionsAny(CashTerms[..3], Lower(q)) then Some(CashHint)
                              else None
  {
    var ql := Lower(q);
    if MentionsAny(CashTerms, ql) {
      var i :| 0 <= i < |CashTerms| && Occurs(CashTerms[i], ql);
      if i == 3 {
        CashFlowImpliesCash(ql);
        assert Occurs(CashTerms[..3][0], ql);
      } else {
        assert CashTerms[..3][i] == CashTerms[i];
      }
    }
    if MentionsAny(CashTerms[..3], ql) {
      var i :| 0 <= i < 3 && Occurs(CashTerms[..3][i], ql);
      assert CashTerms[..3][i] == CashTerms[i];
    }
  }
}

=== FILE: ranking.dfy ===
/** The re-ranking sort: `cand.sort(key=lambda x: x[0], reverse=True)`.
    Python's sort is stable, and `reverse=True` keeps equal-keyed elements in
    their original order, so the result is the stable descending sort by
    score. It is modelled as an insertion sort, which produces exactly that
    order. */
module Ranking {

  import opened Chunks

  /** A deduplicated hit with its score (hundredths) and its position in the
      fetch order. */
  datatype Candidate = Candidate(score: int, pos: nat, chunk: Chunk)

  ghost predicate NonIncreasing(s: seq<Candidate>) {
    forall i, j :: 0 <= i < j < |s| ==> s[i].score >= s[j].score
  }

  /** Inserts `x` after every element scoring at least as much as it, so that
      it follows the equal-scored elements already placed. */
  function Insert(sorted: seq<Candidate>, x: Candidate): (r: seq<Candidate>)
    requires NonIncreasing(sorted)
    ensures |r| == |sorted| + 1
    ensures multiset(r) == multiset(sorted) + multiset{x}
    ensures NonIncreasing(r)
    decreases |sorted|
  {
    if |sorted| == 0 then [x]
    else if sorted[0].score >= x.score then
      var rest := Insert(sorted[1..], x);
      KeepHead(sorted, x, rest);
      [sorted[0]] + rest
    else [x] + sorted
  }

  /** Everything inserted behind the head of a sorted list scores at most as
      much as the head. */
  lemma BoundedByHead(sorted: seq<Candidate>, x: Candidate, rest: seq<Candidate>)
    requires |sorted| > 0 && NonIncreasing(sorted) && sorted[0].score >= x.score
    requires multiset(rest) == multiset(sorted[1..]) + multiset{x}
    ensures forall k :: 0 <= k < |rest| ==> rest[k].score <= sorted[0].score
  {
    forall k | 0 <= k < |rest|
      ensures rest[k].score <= sorted[0].score
    {
      assert rest[k] in multiset(rest);
      if rest[k] != x {
        assert rest[k] in multiset(sorted[1..]);
        var m :| 0 <= m < |sorted[1..]| && sorted[1..][m] == rest[k];
        assert sorted[m + 1] == rest[k];
      }
    }
  }

  /** Putting the head back in front of the list `x` was inserted into keeps
      the list sorted and adds exactly `x`. */
  lemma KeepHead(sorted: seq<Candidate>, x: Candidate, rest: seq<Candidate>)
    requires |sorted| > 0 && NonIncreasing(sorted) && sorted[0].score >= x.score
    requires multiset(rest) == multiset(sorted[1..]) + multiset{x}
    requires NonIncreasing(rest)
    ensures multiset([sorted[0]] + rest) == multiset(sorted) + multiset{x}
    ensures NonIncreasing([sorted[0]] + rest)
  {
    assert sorted == [sorted[0]] + sorted[1..];
    BoundedByHead(sorted, x, rest);
    var r := [sorted[0]] + rest;
    forall i, j | 0 <= i < j < |r|
      ensures r[i].score >= r[j].score
    {
      assert r[j] == rest[j - 1];
      if i > 0 {
        assert r[i] == rest[i - 1];
      }
    }
  }

  /** The stable descending sort by score. */
  function SortByScore(xs: seq<Candidate>): (r: seq<Candidate>)
    ensures NonIncreasing(r)
    ensures multiset(r) == multiset(xs)
    ensures |r| == |xs|
    decreases |xs|
  {
    if |xs| == 0 then []
    else
      var n := |xs| - 1;
      assert xs == xs[..n] + [xs[n]];
      Insert(SortByScore(xs[..n]), xs[n])
  }

  // ---- stability, stated with fetch positions ----

  /** `a` belongs before `b`: a higher score, or an equal score and an earlier
      fetch position. */
  ghost predicate RankedBefore(a: Candidate, b: Candidate) {
    a.score > b.score || (a.score == b.score && a.pos < b.pos)
  }

  /** Sorted by score, descending, with ties in fetch order. */
  ghost predicate Ranked(s: seq<Candidate>) {
    forall i, j :: 0 <= i < j < |s| ==> RankedBefore(s[i], s[j])
  }

  ghost predicate InFetchOrder(s: seq<Candidate>) {
    forall i, j :: 0 <= i < j < |s| ==> s[i].pos < s[j].pos
  }

  lemma {:induction false} InsertRanked(sorted: seq<Candidate>, x: Candidate)
    requires Ranked(sorted)
    requires forall i :: 0 <= i < |sorted| ==> sorted[i].pos < x.pos
    ensures NonIncreasing(sorted) && Ranked(Insert(sorted, x))
    decreases |sorted|
  {
    if |sorted| > 0 && sorted[0].score >= x.score {
      InsertRanked(sorted[1..], x);
      var rest := Insert(sorted[1..], x);
      forall y | y in rest
        ensures RankedBefore(sorted[0], y)
      {
        assert y in multiset(rest);
      }
    }
  }

  /** Sorting candidates given in fetch order puts equal scores in fetch
      order. */
  lemma {:induction false} SortRanked(xs: seq<Candidate>)
    requires InFetchOrder(xs)
    ensures Ranked(SortByScore(xs))
    decreases |xs|
  {
    if |xs| > 0 {
      var n := |xs| - 1;
      SortRanked(xs[..n]);
      var s := SortByScore(xs[..n]);
      forall i | 0 <= i < |s|
        ensures s[i].pos < xs[n].pos
      {
        assert s[i] in multiset(xs[..n]);
      }
      InsertRanked(s, xs[n]);
    }
  }

  // ---- stability, stated without positions ----

  /** The elements of `s` with score `v`, in order. */
  function WithScore(s: seq<Candidate>, v: int): seq<Candidate>
    decreases |s|
  {
    if |s| == 0 then []
    else (if s[0].score == v then [s[0]] else []) + WithScore(s[1..], v)
  }

  lemma {:induction false} WithScoreAppend(a: seq<Candidate>, b: seq<Candidate>, v: int)
    ensures WithScore(a + b, v) == WithScore(a, v) + WithScore(b, v)
    decreases |a|
  {
    if |a| == 0 {
      assert a + b == b;
    } else {
      var h := if a[0].score == v then [a[0]] else [];
      assert (a + b)[0] == a[0];
      assert (a + b)[1..] == a[1..] + b;
      WithScoreAppend(a[1..], b, v);
      assert WithScore(a + b, v) == h + WithScore(a[1..] + b, v);
    }
  }

  lemma {:induction false} WithScoreAbsent(s: seq<Candidate>, v: int)
    requires forall i :: 0 <= i < |s| ==> s[i].score < v
    ensures WithScore(s, v) == []
    decreases |s|
  {
    if |s| > 0 {
      WithScoreAbsent(s[1..], v);
    }
  }

  lemma WithScoreCons(a: Candidate, t: seq<Candidate>, v: int)
    ensures WithScore([a] + t, v) == (if a.score == v then [a] else []) + WithScore(t, v)
  {
    assert ([a] + t)[0] == a;
    assert ([a] + t)[1..] == t;
  }

  lemma {:induction false} InsertWithScore(sorted: seq<Candidate>, x: Candidate, v: int)
    requires NonIncreasing(sorted)
    ensures WithScore(Insert(sorted, x), v)
            == WithScore(sorted, v) + (if x.score == v then [x] else [])
    decreases |sorted|
  {
    if |sorted| == 0 {
      WithScoreCons(x, [], v);
    } else if sorted[0].score >= x.score {
      InsertWithScore(sorted[1..], x, v);
      WithScoreCons(sorted[0], Insert(sorted[1..], x), v);
    } else {
      WithScoreCons(x, sorted, v);
      if x.score == v {
        WithScoreAbsent(sorted, v);
      }
    }
  }

  lemma WithScoreSnoc(p: seq<Candidate>, x: Candidate, v: int)
    ensures WithScore(p + [x], v) == WithScore(p, v) + (if x.score == v then [x] else [])
  {
    WithScoreAppend(p, [x], v);
    assert WithScore([x], v) == (if x.score == v then [x] else []) + WithScore([], v);
  }

  /** The sort is stable: for every score, the elements with that score appear
      in the output in the same order as in the input. */
  lemma {:induction false} SortStable(xs: seq<Candidate>, v: int)
    ensures WithScore(SortByScore(xs), v) == WithScore(xs, v)
    decreases |xs|
  {
    if |xs| > 0 {
      var n := |xs| - 1;
      SortStable(xs[..n], v);
      InsertWithScore(SortByScore(xs[..n]), xs[n], v);
      WithScoreSnoc(xs[..n], xs[n], v);
      assert xs[..n] + [xs[n]] == xs;
    }
  }
}

=== FILE: retriever.dfy ===
/** `search`: build the wide-pool kNN request with the optional ticker
    filter, then re-rank the returned hits: first-seen dedup by fingerprint,
    scoring, stable descending sort, top-k slice. The search service is a
    function parameter from request to hit list. */
module Retriever {

  import opened Wrappers
  import opened Strings
  import opened Chunks
  import opened QueryInference
  import opened Scoring
  import opened Fingerprints
  import opened Ranking

  // ---- the request ----

  /** One `{"term": {field: value}}` filter clause. */
  datatype Term = Term(field: string, value: string)

  /** The request body: result size, the kNN clause on the embedding field,
      the filter list and the `_source` projection. */
  datatype SearchRequest = SearchRequest(
    size: int,
    knnField: string,
    vector: seq<real>,
    knnK: int,
    filter: seq<Term>,
    sourceFields: seq<string>)

  const EmbeddingField := "embedding"
  const TickerField := "ticker"
  const SourceFields: seq<string> :=
    ["doc_id", "ticker", "filing_type", "filing_year", "item_label", "page", "text"]

  const PoolFactor := 4
  const MinPool := 30

  /** `max(k*4, 30)`: four times the requested count, never below 30. */
  function PoolSize(k: int): (n: int)
    ensures n >= MinPool && n >= PoolFactor * k
    ensures n == MinPool || n == PoolFactor * k
  {
    if k * 4 > 30 then k * 4 else 30
  }

  /** The default `k = 8` asks for a pool of 32. */
  lemma DefaultPoolSize()
    ensures PoolSize(8) == 32
  {
  }

  /** The request `search` sends: size and kNN `k` are both the pool size, the
      filter holds exactly one ticker term when a ticker is guessed and is
      empty otherwise, and the stored embedding is never projected back. */
  function BuildRequest(vec: seq<real>, qtext: string, k: int): (req: SearchRequest)
    ensures req.size == PoolSize(k) && req.knnK == req.size
    ensures req.knnField == EmbeddingField && req.vector == vec
    ensures req.filter == [Term(TickerField, AppleTicker)] <==> MentionsApple(qtext)
    ensures req.filter == [] <==> !MentionsApple(qtext)
    ensures req.sourceFields == SourceFields && EmbeddingField !in req.sourceFields
  {
    var tk := GuessTicker(qtext);
    var filt := if tk.Some? then [Term(TickerField, tk.value)] else [];
    SearchRequest(PoolSize(k), EmbeddingField, vec, PoolSize(k), filt, SourceFields)
  }

  // ---- first-seen dedup ----
  //
  // The dedup, sort and slice are stated for any dedup key and any scorer;
  // `search` uses the fingerprint of the text and `_score` against the
  // question (see `Rerank`).

  /** The keys of a list of hits: the `seen` set after the loop has processed
      them. */
  function Seen(hits: seq<Chunk>, key: Chunk -> string): set<string> {
    set i | 0 <= i < |hits| :: key(hits[i])
  }

  /** Position `p` holds the first hit with its key. */
  ghost predicate FirstOccurrence(hits: seq<Chunk>, key: Chunk -> string, p: int) {
    0 <= p < |hits| && forall i :: 0 <= i < p ==> key(hits[i]) != key(hits[p])
  }

  /** `c` is the hit at its position, with its score. */
  ghost predicate IsCandidateOf(hits: seq<Chunk>, score: Chunk -> int, c: Candidate) {
    c.pos < |hits| && c.chunk == hits[c.pos] && c.score == score(c.chunk)
  }

  lemma FirstOccurrencePrefix(hits: seq<Chunk>, key: Chunk -> string)
    requires |hits| > 0
    ensures forall p :: 0 <= p < |hits| - 1 ==>
              (FirstOccurrence(hits, key, p) <==> FirstOccurrence(hits[..|hits| - 1], key, p))
    ensures FirstOccurrence(hits, key, |hits| - 1) <==> key(hits[|hits| - 1]) !in Seen(hits[..|hits| - 1], key)
  {
    var n := |hits| - 1;
    var prev := hits[..n];
    forall p | 0 <= p < n
      ensures FirstOccurrence(hits, key, p) <==> FirstOccurrence(prev, key, p)
    {
      assert forall i :: 0 <= i <= p ==> prev[i] == hits[i];
    }
    if key(hits[n]) in Seen(prev, key) {
      var i :| 0 <= i < n && key(prev[i]) == key(hits[n]);
      assert hits[i] == prev[i];
    }
  }

  /** Every element of `r` is a scored hit at a first occurrence. */
  ghost predicate OnlyFirstOccurrences(hits: seq<Chunk>, key: Chunk -> string, score: Chunk -> int,
                                       r: seq<Candidate>) {
    forall j :: 0 <= j < |r| ==> IsCandidateOf(hits, score, r[j]) && FirstOccurrence(hits, key, r[j].pos)
  }

  /** Every first occurrence appears in `r`. */
  ghost predicate AllFirstOccurrences(hits: seq<Chunk>, key: Chunk -> string, r: seq<Candidate>) {
    forall p :: FirstOccurrence(hits, key, p) ==> exists j :: 0 <= j < |r| && r[j].pos == p
  }

  /** The one-step extension of the dedup loop: the last hit is appended when
      its key was not seen among the earlier ones. */
  function DedupStep(hits: seq<Chunk>, key: Chunk -> string, score: Chunk -> int,
                     kept: seq<Candidate>): seq<Candidate>
    requires |hits| > 0
  {
    var n := |hits| - 1;
    if key(hits[n]) in Seen(hits[..n], key) then kept
    else kept + [Candidate(score(hits[n]), n, hits[n])]
  }

  lemma StepSound(hits: seq<Chunk>, key: Chunk -> string, score: Chunk -> int, kept: seq<Candidate>)
    requires |hits| > 0
    requires OnlyFirstOccurrences(hits[..|hits| - 1], key, score, kept)
    ensures OnlyFirstOccurrences(hits, key, score, DedupStep(hits, key, score, kept))
    ensures forall j :: 0 <= j < |kept| ==> kept[j].pos < |hits| - 1
  {
    var n := |hits| - 1;
    var prev := hits[..n];
    FirstOccurrencePrefix(hits, key);
    forall j | 0 <= j < |kept|
      ensures IsCandidateOf(hits, score, kept[j]) && FirstOccurrence(hits, key, kept[j].pos)
    {
      assert hits[kept[j].pos] == prev[kept[j].pos];
    }
  }

  lemma StepComplete(hits: seq<Chunk>, key: Chunk -> string, score: Chunk -> int, kept: seq<Candidate>)
    requires |hits| > 0
    requires AllFirstOccurrences(hits[..|hits| - 1], key, kept)
    ensures AllFirstOccurrences(hits, key, DedupStep(hits, key, score, kept))
  {
    var n := |hits| - 1;
    var r := DedupStep(hits, key, score, kept);
    FirstOccurrencePrefix(hits, key);
    forall p | FirstOccurrence(hits, key, p)
      ensures exists j :: 0 <= j < |r| && r[j].pos == p
    {
      if p == n {
        assert r[|kept|].pos == n;
      } else {
        var j :| 0 <= j < |kept| && kept[j].pos == p;
        assert r[j] == kept[j];
      }
    }
  }

  lemma StepOrder(hits: seq<Chunk>, key: Chunk -> string, score: Chunk -> int, kept: seq<Candidate>)
    requires |hits| > 0
    requires InFetchOrder(kept) && forall j :: 0 <= j < |kept| ==> kept[j].pos < |hits| - 1
    ensures InFetchOrder(DedupStep(hits, key, score, kept))
  {
  }

  /** The dedup loop: a hit whose key was not seen before is kept, scored, in
      fetch order. The result holds exactly the first occurrences, each
      once. */
  function Dedup(hits: seq<Chunk>, key: Chunk -> string, score: Chunk -> int): (r: seq<Candidate>)
    ensures OnlyFirstOccurrences(hits, key, score, r)
    ensures AllFirstOccurrences(hits, key, r)
    ensures InFetchOrder(r)
    decreases |hits|
  {
    if |hits| == 0 then []
    else
      var kept := Dedup(hits[..|hits| - 1], key, score);
      StepSound(hits, key, score, kept);
      StepComplete(hits, key, score, kept);
      StepOrder(hits, key, score, kept);
      DedupStep(hits, key, score, kept)
  }

  lemma SeenSnoc(hits: seq<Chunk>, key: Chunk -> string)
    requires |hits| > 0
    ensures Seen(hits, key) == Seen(hits[..|hits| - 1], key) + {key(hits[|hits| - 1])}
  {
    var n := |hits| - 1;
    var prev := hits[..n];
    forall x | x in Seen(hits, key)
      ensures x in Seen(prev, key) + {key(hits[n])}
    {
      var i :| 0 <= i < |hits| && key(hits[i]) == x;
      if i < n {
        assert prev[i] == hits[i];
      }
    }
    forall x | x in Seen(prev, key)
      ensures x in Seen(hits, key)
    {
      var i :| 0 <= i < n && key(prev[i]) == x;
      assert hits[i] == prev[i];
    }
  }

  /** Dedup keeps one hit per distinct key. */
  lemma {:induction false} DedupSize(hits: seq<Chunk>, key: Chunk -> string, score: Chunk -> int)
    ensures |Dedup(hits, key, score)| == |Seen(hits, key)|
    decreases |hits|
  {
    if |hits| > 0 {
      var n := |hits| - 1;
      var prev := hits[..n];
      DedupSize(prev, key, score);
      SeenSnoc(hits, key);
      assert Dedup(hits, key, score) == DedupStep(hits, key, score, Dedup(prev, key, score));
      if key(hits[n]) !in Seen(prev, key) {
        assert |Seen(prev, key) + {key(hits[n])}| == |Seen(prev, key)| + 1;
      }
    } else {
      assert Seen(hits, key) == {};
    }
  }

  /** Two first occurrences at different positions have different keys. */
  lemma FirstOccurrencesDiffer(hits: seq<Chunk>, key: Chunk -> string, p1: int, p2: int)
    requires FirstOccurrence(hits, key, p1) && FirstOccurrence(hits, key, p2) && p1 != p2
    ensures key(hits[p1]) != key(hits[p2])
  {
  }

  function ChunksOf(cs: seq<Candidate>): (r: seq<Chunk>)
    ensures |r| == |cs|
    ensures forall j :: 0 <= j < |cs| ==> r[j] == cs[j].chunk
  {
    seq(|cs|, j requires 0 <= j < |cs| => cs[j].chunk)
  }

  ghost predicate DistinctKeys(hs: seq<Chunk>, key: Chunk -> string) {
    forall i, j :: 0 <= i < j < |hs| ==> key(hs[i]) != key(hs[j])
  }

  /** Dedup leaves a list without repeated keys untouched. */
  lemma {:induction false} DedupOfDistinct(hs: seq<Chunk>, key: Chunk -> string, score: Chunk -> int)
    requires DistinctKeys(hs, key)
    ensures ChunksOf(Dedup(hs, key, score)) == hs
    decreases |hs|
  {
    if |hs| > 0 {
      var prev := hs[..|hs| - 1];
      assert DistinctKeys(prev, key);
      DedupOfDistinct(prev, key, score);
      DistinctStep(hs, key, score, Dedup(prev, key, score));
    }
  }

  /** With distinct keys the last hit is always kept. */
  lemma DistinctStep(hs: seq<Chunk>, key: Chunk -> string, score: Chunk -> int, kept: seq<Candidate>)
    requires |hs| > 0 && DistinctKeys(hs, key) && ChunksOf(kept) == hs[..|hs| - 1]
    ensures ChunksOf(DedupStep(hs, key, score, kept)) == hs
  {
    var n := |hs| - 1;
    var prev := hs[..n];
    assert forall i :: 0 <= i < n ==> key(prev[i]) == key(hs[i]) != key(hs[n]);
    assert key(hs[n]) !in Seen(prev, key);
    var c := Candidate(score(hs[n]), n, hs[n]);
    assert ChunksOf(kept + [c]) == ChunksOf(kept) + [hs[n]];
    LastSplit(hs);
  }

  lemma LastSplit<T>(s: seq<T>)
    requires |s| > 0
    ensures s == s[..|s| - 1] + [s[|s| - 1]]
  {
  }

  /** Deduplication is idempotent: running it again on its own output changes
      nothing. */
  lemma DedupIdempotent(hits: seq<Chunk>, key: Chunk -> string, score: Chunk -> int)
    ensures ChunksOf(Dedup(ChunksOf(Dedup(hits, key, score)), key, score))
            == ChunksOf(Dedup(hits, key, score))
  {
    var d := Dedup(hits, key, score);
    var hs := ChunksOf(d);
    forall i, j | 0 <= i < j < |hs|
      ensures key(hs[i]) != key(hs[j])
    {
      FirstOccurrencesDiffer(hits, key, d[i].pos, d[j].pos);
    }
    DedupOfDistinct(hs, key, score);
  }

  // ---- sort and slice ----


  /** `xs[:k]`, negative `k` included: a negative bound counts from the end. */
  function Take<T>(xs: seq<T>, k: int): (r: seq<T>)
    ensures k >= 0 ==> |r| == Min(k, |xs|)
    ensures k < 0 ==> |r| == Max(0, |xs| + k)
    ensures r == xs[..|r|]
  {
    if k >= 0 then (if k < |xs| then xs[..k] else xs)
    else if |xs| + k > 0 then xs[..|xs| + k]
    else []
  }

  /** The position `p` holds a first occurrence the list `r` does not hold. */
  ghost predicate LeftOut(hits: seq<Chunk>, key: Chunk -> string, r: seq<Candidate>, p: int) {
    FirstOccurrence(hits, key, p) && forall i :: 0 <= i < |r| ==> r[i].pos != p
  }

  /** The re-ranked candidates, with their scores and fetch positions: the top
      `k` first occurrences, highest score first, equal scores in fetch order,
      and nothing left out that ranks before any of them. */
  function TopCandidates(hits: seq<Chunk>, k: int, key: Chunk -> string, score: Chunk -> int)
    : (r: seq<Candidate>)
    ensures k >= 0 ==> |r| == Min(k, |Seen(hits, key)|)
    ensures forall j :: 0 <= j < |r| ==> IsCandidateOf(hits, score, r[j]) && FirstOccurrence(hits, key, r[j].pos)
    ensures forall i, j :: 0 <= i < j < |r| ==> key(r[i].chunk) != key(r[j].chunk)
    ensures Ranked(r)
    ensures forall p, j :: LeftOut(hits, key, r, p) && 0 <= j < |r|
                           ==> RankedBefore(r[j], Candidate(score(hits[p]), p, hits[p]))
  {
    var d := Dedup(hits, key, score);
    var full := SortByScore(d);
    DedupSize(hits, key, score);
    SortRanked(d);
    SortedCandidates(hits, key, score, d, full);
    TopK(hits, key, score, d, full, k);
    Take(full, k)
  }

  /** Every sorted element is a first occurrence, and no two share a key. */
  lemma SortedCandidates(hits: seq<Chunk>, key: Chunk -> string, score: Chunk -> int,
                         d: seq<Candidate>, full: seq<Candidate>)
    requires d == Dedup(hits, key, score) && full == SortByScore(d) && Ranked(full)
    ensures forall j :: 0 <= j < |full| ==> IsCandidateOf(hits, score, full[j]) && FirstOccurrence(hits, key, full[j].pos)
    ensures forall i, j :: 0 <= i < j < |full| ==> key(full[i].chunk) != key(full[j].chunk)
  {
    forall j | 0 <= j < |full|
      ensures IsCandidateOf(hits, score, full[j]) && FirstOccurrence(hits, key, full[j].pos)
    {
      assert full[j] in multiset(d);
    }
    forall i, j | 0 <= i < j < |full|
      ensures key(full[i].chunk) != key(full[j].chunk)
    {
      assert full[i] in multiset(d) && full[j] in multiset(d);
      assert RankedBefore(full[i], full[j]);
      FirstOccurrencesDiffer(hits, key, full[i].pos, full[j].pos);
    }
  }

  /** An element of a permutation is found at some index of it. */
  lemma IndexIn(d: seq<Candidate>, full: seq<Candidate>, t: int) returns (u: int)
    requires multiset(full) == multiset(d) && 0 <= t < |d|
    ensures 0 <= u < |full| && full[u] == d[t]
  {
    assert d[t] in multiset(full);
    u :| 0 <= u < |full| && full[u] == d[t];
  }

  /** A first occurrence missing from the slice ranks after everything in
      it. */
  lemma TopK(hits: seq<Chunk>, key: Chunk -> string, score: Chunk -> int,
             d: seq<Candidate>, full: seq<Candidate>, k: int)
    requires d == Dedup(hits, key, score) && multiset(full) == multiset(d) && Ranked(full)
    ensures forall p, j :: LeftOut(hits, key, Take(full, k), p) && 0 <= j < |Take(full, k)|
                           ==> RankedBefore(Take(full, k)[j], Candidate(score(hits[p]), p, hits[p]))
  {
    var r := Take(full, k);
    forall p, j | LeftOut(hits, key, r, p) && 0 <= j < |r|
      ensures RankedBefore(r[j], Candidate(score(hits[p]), p, hits[p]))
    {
      var t :| 0 <= t < |d| && d[t].pos == p;
      var u := IndexIn(d, full, t);
      assert forall i :: 0 <= i < |r| ==> full[i] == r[i] && full[i].pos != p;
      assert u >= |r|;
      assert r[j] == full[j];
      assert RankedBefore(full[j], full[u]);
    }
  }

  /** `_score` against the question, as a scorer. */
  function ScoreAgainst(q: string): Chunk -> int {
    c => Score(q, c)
  }

  /** `_fingerprint(s.get("text", ""))` */
  function FingerprintOf(c: Chunk): string {
    Fingerprint(c.Text())
  }

  /** The hits of the top candidates, for any key and scorer. */
  function TopHits(hits: seq<Chunk>, k: int, key: Chunk -> string, score: Chunk -> int)
    : (r: seq<Chunk>)
    ensures k >= 0 ==> |r| == Min(k, |Seen(hits, key)|)
    ensures forall j :: 0 <= j < |r| ==> r[j] in hits
    ensures DistinctKeys(r, key)
    ensures forall i, j :: 0 <= i < j < |r| ==> score(r[i]) >= score(r[j])
  {
    var rc := TopCandidates(hits, k, key, score);
    CandidateHits(hits, key, score, rc);
    ChunksOf(rc)
  }

  /** The hits of ranked candidates with different keys are fetched hits with
      different keys and non-increasing scores. */
  lemma CandidateHits(hits: seq<Chunk>, key: Chunk -> string, score: Chunk -> int, rc: seq<Candidate>)
    requires forall j :: 0 <= j < |rc| ==> IsCandidateOf(hits, score, rc[j])
    requires forall i, j :: 0 <= i < j < |rc| ==> key(rc[i].chunk) != key(rc[j].chunk)
    requires Ranked(rc)
    ensures forall j :: 0 <= j < |rc| ==> ChunksOf(rc)[j] in hits
    ensures DistinctKeys(ChunksOf(rc), key)
    ensures forall i, j :: 0 <= i < j < |rc| ==> score(ChunksOf(rc)[i]) >= score(ChunksOf(rc)[j])
  {
    var r := ChunksOf(rc);
    forall j | 0 <= j < |rc|
      ensures r[j] in hits
    {
      assert r[j] == hits[rc[j].pos];
    }
    forall i, j | 0 <= i < j < |rc|
      ensures score(r[i]) >= score(r[j])
    {
      assert RankedBefore(rc[i], rc[j]);
    }
  }

  /** The list `search` returns for the hits the service answered with: at
      most `k` hits, one per distinct fingerprint, each a fetched hit, scores
      non-increasing. */
  function Rerank(q: string, k: int, hits: seq<Chunk>): (r: seq<Chunk>)
    ensures k >= 0 ==> |r| == Min(k, |Seen(hits, FingerprintOf)|)
    ensures forall j :: 0 <= j < |r| ==> r[j] in hits
    ensures DistinctKeys(r, FingerprintOf)
    ensures forall i, j :: 0 <= i < j < |r| ==> Score(q, r[i]) >= Score(q, r[j])
  {
    var r := TopHits(hits, k, FingerprintOf, ScoreAgainst(q));
    assert forall c :: ScoreAgainst(q)(c) == Score(q, c);
    r
  }

  /** Where the kept hits come from: each is the first hit with its key, at
      fetch position `pos[j]`, and hits with equal scores keep fetch order. */
  lemma TopHitsPositions(hits: seq<Chunk>, k: int, key: Chunk -> string, score: Chunk -> int)
    returns (pos: seq<int>)
    ensures |pos| == |TopHits(hits, k, key, score)|
    ensures forall j :: 0 <= j < |pos| ==>
              FirstOccurrence(hits, key, pos[j]) && TopHits(hits, k, key, score)[j] == hits[pos[j]]
    ensures forall i, j :: 0 <= i < j < |pos|
              && score(TopHits(hits, k, key, score)[i]) == score(TopHits(hits, k, key, score)[j])
              ==> pos[i] < pos[j]
  {
    var rc := TopCandidates(hits, k, key, score);
    var r := TopHits(hits, k, key, score);
    assert r == ChunksOf(rc);
    pos := seq(|rc|, j requires 0 <= j < |rc| => rc[j].pos);
    forall i, j | 0 <= i < j < |pos| && score(r[i]) == score(r[j])
      ensures pos[i] < pos[j]
    {
      assert RankedBefore(rc[i], rc[j]);
    }
  }

  /** `search`'s promises on its result: every returned hit is the first
      fetched hit with its fingerprint, and hits with equal scores against the
      question come in fetch order. */
  lemma RerankPositions(q: string, k: int, hits: seq<Chunk>) returns (pos: seq<int>)
    ensures |pos| == |Rerank(q, k, hits)|
    ensures forall j :: 0 <= j < |pos| ==>
              FirstOccurrence(hits, FingerprintOf, pos[j]) && Rerank(q, k, hits)[j] == hits[pos[j]]
    ensures forall i, j :: 0 <= i < j < |pos| && Score(q, Rerank(q, k, hits)[i]) == Score(q, Rerank(q, k, hits)[j])
              ==> pos[i] < pos[j]
  {
    pos := TopHitsPositions(hits, k, FingerprintOf, ScoreAgainst(q));
    assert Rerank(q, k, hits) == TopHits(hits, k, FingerprintOf, ScoreAgainst(q));
    assert forall c :: ScoreAgainst(q)(c) == Score(q, c);
  }

  // ---- the whole operation ----

  lemma TopHitsUnfold(hits: seq<Chunk>, k: int, key: Chunk -> string, score: Chunk -> int)
    ensures TopHits(hits, k, key, score) == ChunksOf(Take(SortByScore(Dedup(hits, key, score)), k))
  {
  }

  /** One turn of the loop: the prefix of the hits grows by one hit, and the
      seen set and the kept candidates grow as `Seen` and `Dedup` say. */
  lemma DedupPrefixStep(hits: seq<Chunk>, i: int, key: Chunk -> string, score: Chunk -> int)
    requires 0 <= i < |hits|
    ensures Seen(hits[..i + 1], key) == Seen(hits[..i], key) + {key(hits[i])}
    ensures Dedup(hits[..i + 1], key, score)
            == if key(hits[i]) in Seen(hits[..i], key) then Dedup(hits[..i], key, score)
               else Dedup(hits[..i], key, score) + [Candidate(score(hits[i]), i, hits[i])]
  {
    assert hits[..i + 1][..i] == hits[..i];
    SeenSnoc(hits[..i + 1], key);
  }

  /** The dedup loop of `search`: one pass with a `seen` set, keeping each
      hit whose key is new together with its score and position. */
  method DedupLoop(hits: seq<Chunk>, key: Chunk -> string, score: Chunk -> int)
    returns (seen: set<string>, cand: seq<Candidate>)
    ensures seen == Seen(hits, key)
    ensures cand == Dedup(hits, key, score)
  {
    seen := {};
    cand := [];
    var i := 0;
    while i < |hits|
      invariant 0 <= i <= |hits|
      invariant seen == Seen(hits[..i], key)
      invariant cand == Dedup(hits[..i], key, score)
    {
      var s := hits[i];
      var fp := key(s);
      DedupPrefixStep(hits, i, key, score);
      ghost var next := Dedup(hits[..i + 1], key, score);
      if fp !in seen {
        seen := seen + {fp};
        cand := cand + [Candidate(score(s), i, s)];
      }
      assert cand == next;
      i := i + 1;
    }
    assert hits[..i] == hits;
  }

  /** `search(vec, qtext, k)`: the request, the dedup loop by fingerprint with
      the score against the question, then the sort and the slice. `service`
      answers the request with the hits in service order. */
  method Search(vec: seq<real>, qtext: string, k: int, service: SearchRequest -> seq<Chunk>)
    returns (req: SearchRequest, out: seq<Chunk>)
    ensures req == BuildRequest(vec, qtext, k)
    ensures out == Rerank(qtext, k, service(req))
  {
    req := BuildRequest(vec, qtext, k);
    var hits := service(req);
    var _, cand := DedupLoop(hits, FingerprintOf, ScoreAgainst(qtext));
    var ranked := SortByScore(cand);
    out := ChunksOf(Take(ranked, k));
    TopHitsUnfold(hits, k, FingerprintOf, ScoreAgainst(qtext));
  }
}

=== FILE: scoring.dfy ===
/** The heuristic re-ranking score `_score`, an additive sum of five terms.
    Every bonus in the source is a multiple of 0.01, so the score is kept in
    exact integer hundredths: 1.5 is 150, 0.2 is 20, 5.0 is 500 and
    `0.01 * year` is `year`. */
module Scoring {

  import opened Wrappers
  import opened Strings
  import opened Splitting
  import opened Counting
  import opened Chunks
  import opened QueryInference

  /** `_KWS`, in source order. */
  const Keywords: seq<string> := [
    "supply chain", "supplier", "component", "shortage", "manufactur", "risk",
    "cash", "liquidity", "balance sheet", "competition", "regulatory"]

  const KeywordBonus := 150
  const TokenBonus := 20
  const SectionBonus := 500
  const FilingTypeBonus := 20

  // ---- keyword term ----

  /** The keywords present in the lower-cased question or the lower-cased
      chunk text, by position in `Keywords`. */
  ghost function KeywordsHit(ql: string, txt: string): set<int> {
    set i | 0 <= i < |Keywords| && (Occurs(Keywords[i], ql) || Occurs(Keywords[i], txt))
  }

  /** One bonus per keyword present on either side: a keyword present in both
      the question and the text still counts once. */
  function KeywordScore(ql: string, txt: string): (r: nat)
    ensures r == KeywordBonus * |KeywordsHit(ql, txt)|
    ensures r <= KeywordBonus * |Keywords|
  {
    var present := (kw: string) => Contains(ql, kw) || Contains(txt, kw);
    CountIsPositions(Keywords, present);
    assert Positions(Keywords, present) == KeywordsHit(ql, txt);
    KeywordBonus * Count(Keywords, present)
  }

  // ---- query-token term ----

  /** The class `[a-z0-9\-]`. */
  predicate IsQueryTokenChar(c: char) {
    IsLower(c) || IsDigit(c) || c == '-'
  }

  /** `re.findall(r"[a-z0-9\-]+", q.lower())`: the maximal runs of token
      characters of the lower-cased question, repeats kept. */
  function QueryTokens(q: string): (toks: seq<string>)
    ensures forall j :: 0 <= j < |toks| ==> |toks[j]| > 0 && All(toks[j], IsQueryTokenChar)
    ensures Concat(toks) == Kept(Lower(q), IsQueryTokenChar)
  {
    RunsConcat(Lower(q), IsQueryTokenChar);
    Runs(Lower(q), IsQueryTokenChar)
  }

  /** A whole word of token characters is one token, however long: tokens
      are the maximal runs. */
  lemma QueryTokenWord(w: string)
    requires |w| > 0 && All(w, IsQueryTokenChar)
    ensures QueryTokens(w) == [w]
  {
    assert Lower(w) == w;
    RunsOfAll(w, IsQueryTokenChar);
  }

  /** A character outside `[a-z0-9-]`, after lower-casing, separates the
      tokens of the two sides. */
  lemma QueryTokensSplit(a: string, c: char, b: string)
    requires !IsQueryTokenChar(LowerChar(c))
    ensures QueryTokens(a + [c] + b) == QueryTokens(a) + QueryTokens(b)
  {
    assert Lower(a + [c] + b) == Lower(a) + [LowerChar(c)] + Lower(b);
    RunsSeparator(Lower(a), LowerChar(c), Lower(b), IsQueryTokenChar);
  }

  /** The positions of the token list whose token occurs in the text. */
  ghost function TokensFound(toks: seq<string>, txt: string): set<int> {
    set j | 0 <= j < |toks| && Occurs(toks[j], txt)
  }

  /** One bonus per token occurrence of the question that is a substring of
      the text; a token repeated in the question is rewarded once per
      repetition. The `if tok` guard of the source never fails, since every
      token is non-empty. */
  function TokenScore(q: string, txt: string): (r: nat)
    ensures r == TokenBonus * |TokensFound(QueryTokens(q), txt)|
    ensures r <= TokenBonus * |QueryTokens(q)|
  {
    var toks := QueryTokens(q);
    var found := (tok: string) => tok != "" && Contains(txt, tok);
    CountIsPositions(toks, found);
    assert Positions(toks, found) == TokensFound(toks, txt);
    TokenBonus * Count(toks, found)
  }

  // ---- section, filing type and recency terms ----

  /** The hint exists and the lower-cased `item_label` (missing: empty) starts
      with the lower-cased hint. */
  ghost predicate LabelMatchesHint(q: string, c: Chunk) {
    SectionHint(q).Some?
    && StartsWith(Lower(c.itemLabel.GetOr("")), Lower(SectionHint(q).value))
  }

  function SectionScore(q: string, c: Chunk): (r: nat)
    ensures r == SectionBonus <==> LabelMatchesHint(q, c)
    ensures r == 0 <==> !LabelMatchesHint(q, c)
  {
    var sec := SectionHint(q);
    if sec.Some? && StartsWith(Lower(c.itemLabel.GetOr("")), Lower(sec.value)) then SectionBonus
    else 0
  }

  /** The two periodic report types. */
  predicate IsPeriodicReport(c: Chunk) {
    c.filingType == Some("10-K") || c.filingType == Some("10-Q")
  }

  function FilingTypeScore(c: Chunk): (r: nat)
    ensures r == FilingTypeBonus <==> IsPeriodicReport(c)
    ensures r == 0 <==> !IsPeriodicReport(c)
  {
    if c.filingType == Some("10-K") || c.filingType == Some("10-Q") then FilingTypeBonus else 0
  }

  /** `0.01 * int(s.get("filing_year") or 0)`: a missing year contributes 0. */
  function YearScore(c: Chunk): (r: int)
    ensures c.filingYear.None? ==> r == 0
    ensures c.filingYear.Some? ==> r == c.filingYear.value
  {
    c.filingYear.GetOr(0)
  }

  // ---- the score ----

  /** `_score(q, s)`, in hundredths. */
  function Score(q: string, c: Chunk): (r: int)
    ensures 0 <= r - YearScore(c)
    ensures r - YearScore(c) <= KeywordBonus * |Keywords| + TokenBonus * |QueryTokens(q)|
                               + SectionBonus + FilingTypeBonus
    ensures YearScore(c) >= 0 ==> r >= 0
  {
    var txt := Lower(c.Text());
    KeywordScore(Lower(q), txt) + TokenScore(q, txt) + SectionScore(q, c)
      + FilingTypeScore(c) + YearScore(c)
  }

  /** The score is exactly the sum of its five terms. */
  lemma ScoreTerms(q: string, c: Chunk)
    ensures Score(q, c) == KeywordBonus * |KeywordsHit(Lower(q), Lower(c.Text()))|
                           + TokenBonus * |TokensFound(QueryTokens(q), Lower(c.Text()))|
                           + (if LabelMatchesHint(q, c) then SectionBonus else 0)
                           + (if IsPeriodicReport(c) then FilingTypeBonus else 0)
                           + c.filingYear.GetOr(0)
  {
  }
}

=== FILE: splitting.dfy ===
/** Maximal runs of characters drawn from one class, in the order they occur.
    With the class "not whitespace" this is Python's `str.split()`; with a
    character class `C` it is `re.findall("C+", s)` (both leftmost and
    greedy, so the matches are exactly the maximal runs). */
module Splitting {

  /** Every character of `s` is in the class. */
  ghost predicate All(s: string, keep: char -> bool) {
    forall i :: 0 <= i < |s| ==> keep(s[i])
  }

  /** No character of `s` is in the class. */
  ghost predicate NoneOf(s: string, keep: char -> bool) {
    forall i :: 0 <= i < |s| ==> !keep(s[i])
  }

  function Runs(s: string, keep: char -> bool): (r: seq<string>)
    ensures forall j :: 0 <= j < |r| ==> |r[j]| > 0 && All(r[j], keep)
  {
    RunsAcc(s, keep, "")
  }

  /** The run collected so far, as a list of zero or one runs. */
  function Flush(cur: string): seq<string> {
    if cur == "" then [] else [cur]
  }

  /** Scans `s` while `cur` holds the run that is still open. */
  function RunsAcc(s: string, keep: char -> bool, cur: string): (r: seq<string>)
    requires All(cur, keep)
    ensures forall j :: 0 <= j < |r| ==> |r[j]| > 0 && All(r[j], keep)
    decreases |s|
  {
    if |s| == 0 then Flush(cur)
    else if keep(s[0]) then RunsAcc(s[1..], keep, cur + [s[0]])
    else Flush(cur) + RunsAcc(s[1..], keep, "")
  }

  // ---- the characters of the class, in order ----

  function Kept(s: string, keep: char -> bool): string
    decreases |s|
  {
    if |s| == 0 then ""
    else (if keep(s[0]) then [s[0]] else "") + Kept(s[1..], keep)
  }

  function Concat(xs: seq<string>): string
    decreases |xs|
  {
    if |xs| == 0 then "" else xs[0] + Concat(xs[1..])
  }

  lemma {:induction false} ConcatAppend(xs: seq<string>, ys: seq<string>)
    ensures Concat(xs + ys) == Concat(xs) + Concat(ys)
    decreases |xs|
  {
    if |xs| > 0 {
      assert (xs + ys)[1..] == xs[1..] + ys;
      ConcatAppend(xs[1..], ys);
    } else {
      assert xs + ys == ys;
    }
  }

  lemma {:induction false} RunsAccConcat(s: string, keep: char -> bool, cur: string)
    requires All(cur, keep)
    ensures Concat(RunsAcc(s, keep, cur)) == cur + Kept(s, keep)
    decreases |s|
  {
    if |s| == 0 {
      assert Concat(Flush(cur)) == cur;
    } else if keep(s[0]) {
      var k := Kept(s[1..], keep);
      assert Kept(s, keep) == [s[0]] + k;
      assert RunsAcc(s, keep, cur) == RunsAcc(s[1..], keep, cur + [s[0]]);
      RunsAccConcat(s[1..], keep, cur + [s[0]]);
      assert (cur + [s[0]]) + k == cur + ([s[0]] + k);
    } else {
      assert Kept(s, keep) == Kept(s[1..], keep);
      assert RunsAcc(s, keep, cur) == Flush(cur) + RunsAcc(s[1..], keep, "");
      RunsAccConcat(s[1..], keep, "");
      ConcatAppend(Flush(cur), RunsAcc(s[1..], keep, ""));
      assert Concat(Flush(cur)) == cur;
    }
  }

  /** Nothing is lost or reordered: the runs concatenate to exactly the
      characters of the class, in order. */
  lemma RunsConcat(s: string, keep: char -> bool)
    ensures Concat(Runs(s, keep)) == Kept(s, keep)
  {
    RunsAccConcat(s, keep, "");
  }

  // ---- maximality: a character outside the class always separates ----

  lemma {:induction false} RunsAccSeparator(a: string, c: char, b: string, keep: char -> bool, cur: string)
    requires All(cur, keep) && !keep(c)
    ensures RunsAcc(a + [c] + b, keep, cur) == RunsAcc(a, keep, cur) + Runs(b, keep)
    decreases |a|
  {
    var s := a + [c] + b;
    if |a| == 0 {
      assert s[1..] == b;
    } else {
      assert s[0] == a[0];
      assert s[1..] == a[1..] + [c] + b;
      if keep(a[0]) {
        RunsAccSeparator(a[1..], c, b, keep, cur + [a[0]]);
      } else {
        RunsAccSeparator(a[1..], c, b, keep, "");
      }
    }
  }

  /** A character outside the class splits the runs of the two sides. */
  lemma RunsSeparator(a: string, c: char, b: string, keep: char -> bool)
    requires !keep(c)
    ensures Runs(a + [c] + b, keep) == Runs(a, keep) + Runs(b, keep)
  {
    RunsAccSeparator(a, c, b, keep, "");
  }

  lemma {:induction false} RunsAccNone(w: string, keep: char -> bool, cur: string)
    requires All(cur, keep) && NoneOf(w, keep)
    ensures RunsAcc(w, keep, cur) == Flush(cur)
    decreases |w|
  {
    if |w| > 0 {
      RunsAccNone(w[1..], keep, "");
    }
  }

  /** A string without class characters has no runs. */
  lemma RunsOfNone(w: string, keep: char -> bool)
    requires NoneOf(w, keep)
    ensures Runs(w, keep) == []
  {
    RunsAccNone(w, keep, "");
  }

  lemma {:induction false} RunsAccAll(w: string, keep: char -> bool, cur: string)
    requires All(cur, keep) && All(w, keep) && |cur + w| > 0
    ensures RunsAcc(w, keep, cur) == [cur + w]
    decreases |w|
  {
    if |w| == 0 {
      assert cur + w == cur;
    } else {
      assert All(cur + [w[0]], keep);
      RunsAccAll(w[1..], keep, cur + [w[0]]);
      assert cur + [w[0]] + w[1..] == cur + w;
    }
  }

  /** A non-empty string of class characters is one run: runs are maximal. */
  lemma RunsOfAll(w: string, keep: char -> bool)
    requires |w| > 0 && All(w, keep)
    ensures Runs(w, keep) == [w]
  {
    RunsAccAll(w, keep, "");
    assert "" + w == w;
  }

  /** Leading characters outside the class are ignored. */
  lemma {:induction false} RunsDropLeading(w: string, b: string, keep: char -> bool)
    requires NoneOf(w, keep)
    ensures Runs(w + b, keep) == Runs(b, keep)
    decreases |w|
  {
    if |w| > 0 {
      assert w + b == [] + [w[0]] + (w[1..] + b);
      RunsSeparator([], w[0], w[1..] + b, keep);
      assert Runs([], keep) == [];
      RunsDropLeading(w[1..], b, keep);
    } else {
      assert w + b == b;
    }
  }

  /** Trailing characters outside the class are ignored. */
  lemma RunsDropTrailing(a: string, w: string, keep: char -> bool)
    requires NoneOf(w, keep)
    ensures Runs(a + w, keep) == Runs(a, keep)
  {
    if |w| > 0 {
      assert a + w == a + [w[0]] + w[1..];
      RunsSeparator(a, w[0], w[1..], keep);
      RunsOfNone(w[1..], keep);
    } else {
      assert a + w == a;
    }
  }

  /** A non-empty gap of characters outside the class separates exactly like a
      single one, whatever its length. */
  lemma RunsSkipGap(a: string, w: string, b: string, keep: char -> bool)
    requires |w| > 0 && NoneOf(w, keep)
    ensures Runs(a + w + b, keep) == Runs(a, keep) + Runs(b, keep)
  {
    assert a + w + b == a + [w[0]] + (w[1..] + b);
    RunsSeparator(a, w[0], w[1..] + b, keep);
    RunsDropLeading(w[1..], b, keep);
  }

  // ---- runs commute with a class-preserving character map ----

  function MapChars(f: char -> char, s: string): (r: string)
    ensures |r| == |s|
    ensures forall i :: 0 <= i < |s| ==> r[i] == f(s[i])
  {
    seq(|s|, i requires 0 <= i < |s| => f(s[i]))
  }

  function MapEach(f: char -> char, xs: seq<string>): (r: seq<string>)
    ensures |r| == |xs|
    ensures forall i :: 0 <= i < |xs| ==> r[i] == MapChars(f, xs[i])
  {
    seq(|xs|, i requires 0 <= i < |xs| => MapChars(f, xs[i]))
  }

  lemma {:induction false} RunsAccMap(s: string, keep: char -> bool, f: char -> char, cur: string)
    requires forall c :: keep(f(c)) == keep(c)
    requires All(cur, keep)
    ensures All(MapChars(f, cur), keep)
    ensures RunsAcc(MapChars(f, s), keep, MapChars(f, cur)) == MapEach(f, RunsAcc(s, keep, cur))
    decreases |s|
  {
    var fs := MapChars(f, s);
    var fcur := MapChars(f, cur);
    assert Flush(fcur) == MapEach(f, Flush(cur));
    if |s| > 0 {
      assert fs[0] == f(s[0]);
      assert fs[1..] == MapChars(f, s[1..]);
      if keep(s[0]) {
        assert MapChars(f, cur + [s[0]]) == fcur + [fs[0]];
        assert RunsAcc(s, keep, cur) == RunsAcc(s[1..], keep, cur + [s[0]]);
        assert RunsAcc(fs, keep, fcur) == RunsAcc(fs[1..], keep, fcur + [fs[0]]);
        RunsAccMap(s[1..], keep, f, cur + [s[0]]);
      } else {
        assert RunsAcc(s, keep, cur) == Flush(cur) + RunsAcc(s[1..], keep, "");
        assert RunsAcc(fs, keep, fcur) == Flush(fcur) + RunsAcc(fs[1..], keep, "");
        RunsAccMap(s[1..], keep, f, "");
        assert MapChars(f, "") == "";
        var rest := RunsAcc(s[1..], keep, "");
        assert MapEach(f, Flush(cur) + rest) == MapEach(f, Flush(cur)) + MapEach(f, rest);
      }
    }
  }

  /** Mapping every character by a function that never moves a character into
      or out of the class maps every run the same way. */
  lemma RunsMap(s: string, keep: char -> bool, f: char -> char)
    requires forall c :: keep(f(c)) == keep(c)
    ensures Runs(MapChars(f, s), keep) == MapEach(f, Runs(s, keep))
  {
    RunsAccMap(s, keep, f, "");
    assert MapChars(f, "") == "";
  }
}

=== FILE: strings.dfy ===
/** Character classes and the string operations of Python's `str` that the
    model needs. Python's Unicode-aware classes (`\s`, `\w`, `str.lower`,
    `str.split`) are restricted to ASCII throughout. */
module Strings {

  import opened Wrappers

  // ---- character classes ----

  predicate IsUpper(c: char) { 'A' <= c <= 'Z' }
  predicate IsLower(c: char) { 'a' <= c <= 'z' }
  predicate IsDigit(c: char) { '0' <= c <= '9' }

  /** The class `[0-9a-zA-Z]`. */
  predicate IsAlnum(c: char) { IsUpper(c) || IsLower(c) || IsDigit(c) }

  /** The class `\w`, ASCII only. */
  predicate IsWordChar(c: char) { IsAlnum(c) || c == '_' }

  /** The class `\s` and the separators of `str.split()`, ASCII only: space,
      tab, line feed, vertical tab, form feed, carriage return and the four
      information separators 0x1C-0x1F. */
  predicate IsSpace(c: char) {
    c == ' ' || 9 <= c as int <= 13 || 28 <= c as int <= 31
  }

  predicate IsNonSpace(c: char) { !IsSpace(c) }

  function LowerChar(c: char): char {
    if IsUpper(c) then (c as int + 32) as char else c
  }

  function UpperChar(c: char): char {
    if IsLower(c) then (c as int - 32) as char else c
  }

  /** `s.lower()` */
  function Lower(s: string): (r: string)
    ensures |r| == |s|
    ensures forall i :: 0 <= i < |s| ==> r[i] == LowerChar(s[i])
  {
    seq(|s|, i requires 0 <= i < |s| => LowerChar(s[i]))
  }

  /** `s.upper()` */
  function Upper(s: string): (r: string)
    ensures |r| == |s|
    ensures forall i :: 0 <= i < |s| ==> r[i] == UpperChar(s[i])
  {
    seq(|s|, i requires 0 <= i < |s| => UpperChar(s[i]))
  }

  lemma LowerAppend(a: string, b: string)
    ensures Lower(a + b) == Lower(a) + Lower(b)
  {
  }

  // ---- substring search: Python's `needle in hay` ----

  ghost predicate OccursAt(needle: string, hay: string, i: int) {
    0 <= i && i + |needle| <= |hay| && hay[i..i + |needle|] == needle
  }

  ghost predicate Occurs(needle: string, hay: string) {
    exists i :: OccursAt(needle, hay, i)
  }

  /** Text without an occurrence has none after its first character either. */
  lemma OccursInTail(needle: string, hay: string)
    requires |hay| > 0 && !Occurs(needle, hay)
    ensures !Occurs(needle, hay[1..])
  {
    forall i | OccursAt(needle, hay[1..], i)
      ensures OccursAt(needle, hay, i + 1)
    {
      assert hay[1..][i..i + |needle|] == hay[i + 1..i + 1 + |needle|];
    }
  }

  /** `needle in hay` */
  function Contains(hay: string, needle: string): (b: bool)
    ensures b <==> Occurs(needle, hay)
  {
    ContainsFrom(hay, needle, 0)
  }

  function ContainsFrom(hay: string, needle: string, i: nat): (b: bool)
    ensures b <==> exists j :: i <= j && OccursAt(needle, hay, j)
    decreases |hay| - i
  {
    if i + |needle| > |hay| then false
    else if hay[i..i + |needle|] == needle then assert OccursAt(needle, hay, i); true
    else ContainsFrom(hay, needle, i + 1)
  }

  function Min(a: int, b: int): int { if a <= b then a else b }
  function Max(a: int, b: int): int { if a >= b then a else b }

  /** `s.startswith(p)` */
  predicate StartsWith(s: string, p: string) {
    |p| <= |s| && s[..|p|] == p
  }

  // ---- splitting at a character ----

  /** `ch not in s` */
  predicate Lacks(s: string, ch: char) {
    forall i :: 0 <= i < |s| ==> s[i] != ch
  }

  /** `s.find(ch)`, or the length of `s` when `ch` does not occur. */
  function FirstIndex(s: string, ch: char): (n: nat)
    ensures n <= |s|
    ensures Lacks(s[..n], ch)
    ensures n < |s| ==> s[n] == ch
    decreases |s|
  {
    if |s| == 0 || s[0] == ch then 0
    else
      var n := 1 + FirstIndex(s[1..], ch);
      assert s[..n] == [s[0]] + s[1..][..n - 1];
      n
  }

  lemma FirstIndexAfter(a: string, ch: char, b: string)
    requires Lacks(a, ch)
    ensures FirstIndex(a + [ch] + b, ch) == |a|
  {
    var s := a + [ch] + b;
    var n := FirstIndex(s, ch);
    assert s[|a|] == ch;
    assert s[..|a|] == a;
  }

  /** Splitting at the first occurrence of a character: a head free of it is
      determined, and so is the rest. */
  lemma SplitAt(a: string, b: string, c: string, d: string, ch: char)
    requires Lacks(a, ch) && Lacks(c, ch) && a + [ch] + b == c + [ch] + d
    ensures a == c && b == d
  {
    var s := a + [ch] + b;
    FirstIndexAfter(a, ch, b);
    FirstIndexAfter(c, ch, d);
    assert a == s[..|a|] && c == s[..|c|];
    assert b == s[|a| + 1..] && d == s[|c| + 1..];
  }

  // ---- joining and stripping ----

  /** `sep.join(xs)` */
  function Join(sep: string, xs: seq<string>): string
    decreases |xs|
  {
    if |xs| == 0 then ""
    else if |xs| == 1 then xs[0]
    else xs[0] + sep + Join(sep, xs[1..])
  }

  lemma {:induction false} JoinConcat(sep: string, xs: seq<string>, ys: seq<string>)
    requires |xs| > 0 && |ys| > 0
    ensures Join(sep, xs + ys) == Join(sep, xs) + sep + Join(sep, ys)
    decreases |xs|
  {
    if |xs| == 1 {
      assert (xs + ys)[1..] == ys;
    } else {
      assert (xs + ys)[1..] == xs[1..] + ys;
      JoinConcat(sep, xs[1..], ys);
    }
  }

  /** `s.lstrip()` */
  function StripLeft(s: string): (r: string)
    ensures r == "" || !IsSpace(r[0])
    ensures |r| <= |s| && r == s[|s| - |r|..]
    decreases |s|
  {
    if |s| > 0 && IsSpace(s[0]) then StripLeft(s[1..]) else s
  }

  /** `s.rstrip()` */
  function StripRight(s: string): (r: string)
    ensures r == "" || !IsSpace(r[|r| - 1])
    ensures |r| <= |s| && r == s[..|r|]
    decreases |s|
  {
    if |s| > 0 && IsSpace(s[|s| - 1]) then StripRight(s[..|s| - 1]) else s
  }

  /** `s.strip()` */
  function Strip(s: string): (r: string)
    ensures r == "" || (!IsSpace(r[0]) && !IsSpace(r[|r| - 1]))
  {
    StripRight(StripLeft(s))
  }

  // ---- decimal rendering: Python's `str(n)` on an int ----

  function DigitChar(d: nat): (c: char)
    requires d < 10
    ensures IsDigit(c)
  {
    ('0' as int + d) as char
  }

  function DigitValue(c: char): (d: nat)
    requires IsDigit(c)
    ensures d < 10
  {
    c as int - '0' as int
  }

  predicate AllDigits(s: string) {
    forall i :: 0 <= i < |s| ==> IsDigit(s[i])
  }

  /** `str(n)` for a non-negative integer: decimal digits without a leading
      zero. */
  function NatToString(n: nat): (s: string)
    ensures |s| > 0 && AllDigits(s)
    ensures s[0] == '0' ==> n == 0
    decreases n
  {
    if n < 10 then [DigitChar(n)]
    else NatToString(n / 10) + [DigitChar(n % 10)]
  }

  /** `str(n)` */
  function IntToString(n: int): (s: string)
    ensures |s| > 0
    ensures s[0] == '-' <==> n < 0
    ensures forall i :: 0 <= i < |s| ==> IsDigit(s[i]) || s[i] == '-'
  {
    if n < 0 then "-" + NatToString(-n) else NatToString(n)
  }

  /** The value of a string of decimal digits (`int(s)`). */
  function ParseDigits(s: string): nat
    requires AllDigits(s)
    decreases |s|
  {
    if |s| == 0 then 0
    else 10 * ParseDigits(s[..|s| - 1]) + DigitValue(s[|s| - 1])
  }

  /** Decimal rendering and parsing are inverse: `int(str(n)) == n`. */
  lemma {:induction false} ParseNatToString(n: nat)
    ensures ParseDigits(NatToString(n)) == n
    decreases n
  {
    var s := NatToString(n);
    if n >= 10 {
      ParseNatToString(n / 10);
      assert s[..|s| - 1] == NatToString(n / 10);
    }
  }

  /** Different integers render differently. */
  lemma IntToStringInjective(a: int, b: int)
    requires IntToString(a) == IntToString(b)
    ensures a == b
  {
    if a < 0 && b < 0 {
      assert NatToString(-a) == IntToString(a)[1..];
      assert NatToString(-b) == IntToString(b)[1..];
      ParseNatToString(-a);
      ParseNatToString(-b);
    } else {
      ParseNatToString(a);
      ParseNatToString(b);
    }
  }
}

=== FILE: wrappers.dfy ===
/** Failure-compatible wrappers used across the model: an optional value (a
    Python `None` or a missing dictionary key) and a result that carries
    either a value or the error the source would raise. */
module Wrappers {

  datatype Option<+T> = None | Some(value: T) {

    /** The value, or `default` when absent (Python's `d.get(key, default)`). */
    function GetOr(default: T): T {
      match this
      case Some(v) => v
      case None => default
    }
  }

  datatype Result<+R, +E> = Success(value: R) | Failure(error: E)
}
